=== FILE: README.md ===
# mtg-gemini quiz core, modelled in Dafny

This project models the rule-bearing core of the mtg-gemini quiz application:
a web quiz in which users name the artwork of Magic: The Gathering cards. It
covers six pieces of server logic:

- the **seeded sampler**, a linear congruential generator
  (`state := (state * 9301 + 49297) % 233280`) and the window offset it gives;
- the **quiz formats**: the static format table, the filter union
  (date range, set type, colour, custom), the compiler from a format to a card
  where-clause, validation and lookup;
- the **quiz router**: card selection for a new quiz (a random window with a
  backfill), case-insensitive grading, scoring, and the fuzzy-search threshold;
- the **TTL cache**: a key-to-entry map with `set`, `get`, `clear` and `cleanup`;
- the **route guard** that runs before every page;
- the **artist paging**: offset paging with `take: limit + 1` and a next cursor,
  then the filtering and trimming of grouped artist rows.

Each piece is one module (`SeededRandom`, `QuizFormats`, `QuizRouter`,
`ServerCache`, `Middleware`, `ArtistsRouter`). Three shared modules hold the
vocabulary: `Wrappers` has `Option` and `Result`, `Cards` has the card row
and its date type, and `Sequences` has `skip`/`take`, the `notIn` filter and
facts about duplicate-free id lists.

The model is pure. Time (`Date.now()`), randomness (`Math.random()`), the
session and the database are parameters:

- `Math.random()` is a `Draw`, a fraction `num / den` in `[0, 1)`.
- The clock is an explicit `now`.
- The session is a boolean.
- A query result is a sequence of rows in the order the store returns them.
- The card names and the quizzes are maps in a `Store` value. Each quiz holds
  its answers as a sequence, in insertion order.

A where-clause is a `WhereClause` tree. `Matches(card, clause)` states which
cards the data layer returns for it.

Some behaviours of the code are easy to misread, and the model follows the code:

- Answers are compared without trimming.
- A one-character search query is rejected by input validation. It is not
  answered with an empty list.
- For a pool of N cards and a sample of k, the window offset lies in
  `[0, N - k)` when N > k, and is 0 otherwise. The last window start,
  N - k, is never drawn.
- `createQuiz` neither stores a seed nor takes a format.

## Model

| member | source | states |
|---|---|---|
| SeededRandom.JsRem | src/lib/seeded-random.ts:8 | JavaScript's `%` for a positive divisor: the remainder differs from the dividend by a multiple of the divisor, and has the dividend's sign with magnitude below the divisor. |
| SeededRandom.Step | src/lib/seeded-random.ts:8 | The new state is congruent to `state * 9301 + 49297` modulo 233280, lies strictly between -233280 and 233280, and has the sign of `state * 9301 + 49297` (zero allowed). So it is non-negative when the old state is. |
| SeededRandom.OutputAt | src/lib/seeded-random.ts:5-11 | The i-th value a generator created from `seed` returns (counting from 0) is `lcg^(i+1)(seed) / 233280`. So the same seed always gives the same sequence. |
| SeededRandom.OutputsPrefix | src/lib/seeded-random.ts:5-11 | The first n values are a prefix of the first m values when n <= m. Calling the generator more often only extends the sequence. |
| SeededRandom.StatesInRange | src/lib/seeded-random.ts:8 | From a non-negative seed, every state after at least one step lies in `[0, 233280)`. |
| SeededRandom.CreateSeededRandom | src/lib/seeded-random.ts:5-6 | A new generator's first value comes from the state one step after the seed. |
| SeededRandom.Next | src/lib/seeded-random.ts:7-10 | One call returns the new state divided by 233280, so the value lies in `(-1, 1)`. From a non-negative state both the new state and the value are non-negative, so the value lies in `[0, 1)`. |
| SeededRandom.Outputs | src/lib/seeded-random.ts:5-11 | n calls return n values, each in `(-1, 1)`. From a non-negative seed every value lies in `[0, 1)`. |
| SeededRandom.Span | src/lib/seeded-random.ts:30 | `max(0, totalCards - actualCardCount)` is zero exactly when the sample is at least the pool, and otherwise equals the difference. |
| SeededRandom.ScaleDraw | src/lib/seeded-random.ts:24-30 | The integer computation equals the real `floor((num / den) * d)`. For a draw in `[0, 1)` and d > 0 the result lies in `[0, d)`. For a draw in `(-1, 1)` it lies in `[-d, d)`. |
| SeededRandom.SeededOffset | src/lib/seeded-random.ts:29-30 | The seeded offset is `floor(first value of a new generator * d)`. It is 0 when d is 0. Otherwise it lies in `[-d, d)`, and in `[0, d)` for a non-negative seed. |
| SeededRandom.GetRandomOffset | src/lib/seeded-random.ts:17-31 | With a seed, the offset is `floor(first output * d)`, which uses exactly one draw. Without a seed it is `floor(random * d)`. It is 0 when the sample covers the pool. With no seed or a non-negative seed it lies in `[0, N - k)`. |
| SeededRandom.WindowFits | src/lib/seeded-random.ts:30 | With no seed or a non-negative seed, `offset + actualCardCount <= totalCards` whenever the pool is at least the sample. |
| SeededRandom.SeededOffsetIgnoresRandom | tests/seeded-random.test.ts:44-53 | With a seed, the offset is the same whatever `Math.random()` would return, so equal seeds and counts give equal offsets. |
| SeededRandom.SeededOffsetIsQuotient | src/lib/seeded-random.ts:29-30 | For a non-negative seed, the offset is the integer quotient `(lcg(seed) * d) div 233280`, with `d = max(0, N - k)`. |
| SeededRandom.DistinctSeedsDistinctOffsets | tests/seeded-random.test.ts:55-63 | Seeds 12345 and 54321 give offsets 409 and 18 into 1000 cards with 10 requested. |
| SeededRandom.NegativeSeedNegativeOffset | src/lib/seeded-random.ts:8 | Seed -100 steps to state -180963, and its offset into 1000 cards is -768. |
| QuizFormats.CompileFilter | src/lib/quiz-formats.ts:147-188 | A card matches a filter's compiled clause iff the filter admits it. A date range is an inclusive lower bound and an exclusive upper bound. A set type is set-type membership. A colour is a shared colour, and an empty colour list admits every card. A custom filter's clause passes through unchanged. A date range with no bounds compiles to `{}`. |
| QuizFormats.BuildFormatWhereClause | src/lib/quiz-formats.ts:136-194 | A card matches the compiled format iff every filter admits it. No filters give `{}`. One filter gives its own condition, unwrapped. Several filters give an `AND` of the per-filter conditions, in filter order. |
| QuizFormats.ColorlessObjectIsCyclic | src/lib/quiz-formats.ts:178-180 | No finite where-clause equals the object the colourless branch builds, because that object sits inside its own `OR` list. |
| QuizFormats.CompileFilterAsWritten | src/lib/quiz-formats.ts:171-183 | The compiler as written has no finite result exactly for colour filters with `includeColorless`. Every other filter compiles as `CompileFilter` does, so it keeps the meaning stated there. |
| QuizFormats.CompileAllAsWritten | src/lib/quiz-formats.ts:145-190 | The filter loop as written yields the per-filter conditions iff no filter is colourless. They are then the conditions of the corrected loop. |
| QuizFormats.BuildFormatWhereClauseAsWritten | src/lib/quiz-formats.ts:136-194 | `buildFormatWhereClause` as written has a finite result iff no filter of the format is colourless. That result is the corrected clause, and a card matches it iff every filter admits the card. |
| QuizFormats.FiltersValid | src/lib/quiz-formats.ts:220-245 | The filter loop accepts iff every filter is well formed. |
| QuizFormats.ValidateFormat | src/lib/quiz-formats.ts:214-248 | `validateFormat` is false iff one of these holds: the id, name or description is empty; some date range has both bounds with after >= before; some set-type list is empty; some colour list is empty. Custom filters never cause rejection. |
| QuizFormats.QuizFormatsTable | src/lib/quiz-formats.ts:47-133 | The table has six formats with distinct ids. The first five are active, and the last ('multicolor') is not. |
| QuizFormats.ConfiguredFormatsValid | src/lib/quiz-formats.ts:47-133 | Every entry of the format table passes validation, whatever the current year. |
| QuizFormats.FindActive | src/lib/quiz-formats.ts:198 | The result is the first position whose format has the id and is active. It is absent iff no such format exists. |
| QuizFormats.GetFormatById | src/lib/quiz-formats.ts:197-203 | On success the format is in the table, has the requested id and is active. The lookup fails, with the same error for an unknown and for an inactive id, iff no active entry has that id. |
| QuizFormats.MulticolorNotSelectable | src/lib/quiz-formats.ts:103-132 | 'multicolor' is in the table but its lookup fails, because it is inactive. |
| QuizFormats.ActiveOnly | src/lib/quiz-formats.ts:206 | The filter keeps no more formats than it is given, and every format it keeps is active. |
| QuizFormats.ActiveOnlyMembers | src/lib/quiz-formats.ts:206 | A format is kept iff it is in the list and active. |
| QuizFormats.GetAllActiveFormats | src/lib/quiz-formats.ts:205-207 | The result holds exactly the active table entries. |
| QuizFormats.ActiveOnlyPrefix | src/lib/quiz-formats.ts:206 | When all active formats come before all inactive ones, filtering keeps exactly that prefix, in order. |
| QuizFormats.ActiveFormatsInOrder | src/lib/quiz-formats.ts:205-207 | The active formats are the first five table entries, in table order. |
| QuizFormats.FormatToSummary | src/lib/quiz-formats.ts:258-265 | The summary carries the format's id, name, description and active flag unchanged. |
| QuizFormats.SummaryOfLookup | src/lib/quiz-formats.ts:258-265 | The summary of a successfully looked-up format names the requested id and is active. |
| QuizRouter.ResolveCardCount | src/server/api/routers/quiz.ts:13 | The card count defaults to 20. It is rejected iff given outside `[1, 50]`. A given count that passes is kept. |
| QuizRouter.ActualCardCount | src/server/api/routers/quiz.ts:31 | `min(cardCount, totalCards)` lies in `[1, totalCards]`, is at most the request, and equals one of the two. |
| QuizRouter.WindowOffset | src/server/api/routers/quiz.ts:34-36 | The inline offset is the unseeded `getRandomOffset`. It is 0 when the sample covers the pool, and below `total - actual` otherwise. |
| QuizRouter.FirstFetch | src/server/api/routers/quiz.ts:38-44 | The first fetch is the slice `pool[offset .. min(offset + actual, |pool|))`, and empty when the offset passes the end. So it holds at most `actual` ids. |
| QuizRouter.Backfill | src/server/api/routers/quiz.ts:46-60 | The window is kept as a prefix, and nothing is added when it is full. Otherwise the added ids are the first unchosen pool ids, in pool order: a prefix of the pool without the window, as long as the shortfall or as that list allows. Each added id is from the pool and not already chosen. |
| Sequences.Skip | src/server/api/routers/quiz.ts:39 | `skip: n` drops the first n rows, and leaves nothing when n reaches the end. |
| Sequences.Take | src/server/api/routers/quiz.ts:40 | `take: n` keeps a prefix of the rows, of length `min(n, |rows|)`. |
| Sequences.Without | src/server/api/routers/quiz.ts:53-57 | `notIn` keeps exactly the rows whose id is not excluded, and never adds rows. Their order is fixed by `WithoutAppend` and `WithoutSingle`. |
| Sequences.WithoutAppend | src/server/api/routers/quiz.ts:53-57 | The `notIn` filter of a concatenation is the concatenation of the filtered parts, so kept ids stay in their original order. |
| Sequences.WithoutSingle | src/server/api/routers/quiz.ts:53-57 | A single id is kept, as itself, exactly when it is not excluded. |
| QuizRouter.SelectCards | src/server/api/routers/quiz.ts:25-60 | Selection fails iff the count is zero. Otherwise the first window is a prefix of the result, the result has at most `actual` ids, and every id is from the pool. When the window is short, the added ids are a prefix of the pool without the window, in pool order. |
| QuizRouter.FirstFetchDistinct | src/server/api/routers/quiz.ts:38-44 | Over duplicate-free rows the window is duplicate-free and as long as the rows allow. |
| QuizRouter.BackfillDistinct | src/server/api/routers/quiz.ts:47-60 | Backfilling a duplicate-free window from duplicate-free rows gives a duplicate-free list of `min(actual, |pool|)` ids. |
| QuizRouter.SelectionIsDistinctAndFull | src/server/api/routers/quiz.ts:31-60 | Over a duplicate-free pool the selection has no duplicate ids. It has `min(actual, |pool|)` ids, which is exactly `actualCardCount` when the count is current. |
| QuizRouter.NoBackfillWhenCountCurrent | src/server/api/routers/quiz.ts:34-60 | When the count equals the number of rows, the window fits inside the pool. The selection is exactly `pool[offset .. offset + actual)`, and no backfill runs. |
| QuizRouter.CreateQuiz | src/server/api/routers/quiz.ts:18-81 | Creation fails iff the card count is invalid or the pool is empty. On success, exactly one quiz is added: it belongs to the user, has the selected cards, no answers and no completion time. Card names are untouched. |
| QuizRouter.Lower | src/server/api/routers/quiz.ts:157 | Lowering keeps the length, maps each letter A-Z to its lower-case form, and leaves every other character (spaces, digits, punctuation) unchanged. So no capital A-Z remains. |
| QuizRouter.IsCorrect | src/server/api/routers/quiz.ts:157 | Under the A-Z lowering of this model, an answer is correct iff it has the card name's length and agrees with it character by character, where a letter of A-Z matches itself in either case. |
| QuizRouter.GradingIgnoresCase | src/server/api/routers/quiz.ts:156-157 | Grading is unchanged by lowering either side, and it is symmetric. |
| QuizRouter.CorrectAnswerSameLength | src/server/api/routers/quiz.ts:156-157 | Under the A-Z lowering of this model, a correct answer has exactly the card name's length, so no whitespace is trimmed. |
| QuizRouter.GradingExamples | src/server/api/routers/quiz.ts:156-157 | "lightning bolt" and "LIGHTNING BOLT" are correct for "Lightning Bolt". " lightning bolt" is not. |
| QuizRouter.SubmitAnswer | src/server/api/routers/quiz.ts:144-175 | The call fails with CardNotFound iff the card is missing. Otherwise, `isCorrect` holds iff the lowered name equals the lowered answer, and `correctAnswer` is the card name. Exactly one answer row is appended to that quiz, and every other quiz and the card names are unchanged. |
| QuizRouter.CountCorrect | src/server/api/routers/quiz.ts:193 | The score is at most the answer count. It equals the count iff every answer is correct, and is 0 iff none is. |
| QuizRouter.CountCorrectAppend | src/server/api/routers/quiz.ts:193 | Appending an answer raises the score by one exactly when that answer is correct. |
| QuizRouter.CompleteQuiz | src/server/api/routers/quiz.ts:183-201 | Completion fails iff the quiz is missing. On success it stamps `now` and changes nothing else. The score is the number of answers marked correct, at most the number of answers, and `totalQuestions` is the number of cards. |
| QuizRouter.ScoreCanExceedQuestions | src/server/api/routers/quiz.ts:160-194 | Answering the only card of a quiz correctly twice scores 2 out of 1 question, because answers are appended with no uniqueness check. |
| QuizRouter.SearchThreshold | src/server/api/routers/quiz.ts:206-219 | Input is rejected iff the query length is outside 2..100, the limit is outside 1..50, or the threshold is outside [0, 1]. The threshold used lies in [0, 1]. It is 0.1 for a two-character query and 0.2 for a three-character query, both below the 0.3 default. Otherwise it is the caller's threshold (default 0.3). |
| QuizRouter.ThresholdGrowsWithQueryLength | src/server/api/routers/quiz.ts:214-219 | With the default threshold, a longer query never gets a lower threshold. It gets a strictly higher one when the longer query has at most four characters. |
| QuizRouter.OneCharacterQueryRejected | src/server/api/routers/quiz.ts:206 | A one-character query is rejected as invalid input. |
| ServerCache.Expired | src/lib/server-cache.ts:23 | An entry is still live at exactly ttl elapsed and stale one millisecond later. At its write time it is stale iff the ttl is negative. |
| ServerCache.Set | src/lib/server-cache.ts:8-14 | `set` stores the data stamped `now`, with the given ttl or the 300000 ms default. Only that key is added or replaced. |
| ServerCache.Get | src/lib/server-cache.ts:16-29 | A missing key reads null and leaves the map unchanged. A stale entry (more than ttl elapsed) reads null and only that key is removed. A live entry, including one at exactly ttl elapsed, returns its data and leaves the map unchanged. |
| ServerCache.Clear | src/lib/server-cache.ts:31-33 | `clear` empties the map. |
| ServerCache.Cleanup | src/lib/server-cache.ts:36-43 | A key survives cleanup iff its entry is live, and survivors are unchanged. |
| ServerCache.SetThenGet | src/lib/server-cache.ts:8-29 | With a non-negative ttl, reading a key at any time from the write until ttl later returns the written data. |
| ServerCache.SetThenGetStale | src/lib/server-cache.ts:23-26 | Reading a key more than ttl after its write returns null and deletes it. |
| ServerCache.SetLeavesOtherKeys | src/lib/server-cache.ts:8-14 | Writing one key does not change what any other key reads. |
| ServerCache.ExpiryIsPermanent | src/lib/server-cache.ts:23 | An entry that is stale stays stale at every later time. |
| ServerCache.CleanupInvisibleToGet | src/lib/server-cache.ts:36-43 | Reads at the cleanup time or later return the same data with or without the cleanup. |
| ServerCache.CleanupIdempotent | src/lib/server-cache.ts:36-43 | A second cleanup at the same time removes nothing more. |
| ServerCache.ClearThenGet | src/lib/server-cache.ts:31-33 | After `clear`, every read misses. |
| Middleware.IsOpenPath | middleware.ts:18-23 | A path is open iff it starts with `/auth/signin`, `/api/` or `/_next/`, or contains a dot. The `/api/auth` prefix adds nothing beyond `/api/`. |
| Middleware.IsProtectedRoute | middleware.ts:28-30 | A path is protected iff it is `/quiz` or `/cards`, or starts with `/quiz/` or `/cards/`. |
| Middleware.Decide | middleware.ts:5-45 | The guard redirects to sign-in iff the path is not open, is protected and there is no session. The callback URL is the pathname. It redirects home only for a signed-in visit to `/auth/signin`. |
| Middleware.RedirectHomeUnreachable | middleware.ts:18-42 | The guard never redirects home. With a session it always continues. |
| Middleware.OpenPathsPass | middleware.ts:13-25 | Paths starting with `/auth/signin`, `/api/auth`, `/api/` or `/_next/`, or containing a dot, continue with or without a session. |
| Middleware.QuizzesNotProtected | middleware.ts:28-30 | `/quizzes` is not protected, and a signed-out visit to it continues. |
| Middleware.SignedOutQuizPageRedirects | middleware.ts:33-37 | A signed-out visit to `/quiz/abc` redirects to sign-in with callback `/quiz/abc`. |
| Middleware.DottedPathBypassesGuard | middleware.ts:18-25 | A signed-out visit to `/quiz/a.b` continues, because its dot makes it an open path. |
| Middleware.SignedInSigninNotRedirected | middleware.ts:40-42 | A signed-in visit to `/auth/signin` continues instead of going home. |
| Middleware.DecideIntended | middleware.ts:40-42 | With the signed-in check first, the guard redirects home iff a signed-in user visits `/auth/signin`. Every other decision is unchanged. |
| ArtistsRouter.IsSpace | src/server/api/routers/artists.ts:51 | A white-space character lies between U+0009 and U+FEFF and is never a digit or an ASCII letter. |
| ArtistsRouter.ContentStart | src/server/api/routers/artists.ts:51 | The content starts at the first character that is not white space, or at the end when there is none. Everything before it is white space. |
| ArtistsRouter.ContentEnd | src/server/api/routers/artists.ts:51 | Within a range, the content ends after its last character that is not white space. Everything after that point in the range is white space. |
| ArtistsRouter.Trim | src/server/api/routers/artists.ts:51-55 | The result is a contiguous slice of the input with only white space cut from either end. It neither starts nor ends with white space. It is empty iff the input is all white space. |
| ArtistsRouter.TrimIdempotent | src/server/api/routers/artists.ts:55 | Trimming a trimmed name changes nothing. |
| ArtistsRouter.Paginate | src/server/api/routers/artists.ts:84-92 | A page is the slice `rows[offset .. min(offset + limit, |rows|))` and holds at most `limit` rows. There is a next cursor iff rows remain past `offset + limit`, and it is then `offset + limit`, with a full page. |
| ArtistsRouter.WalkStep | src/server/api/routers/artists.ts:84-92 | While rows remain past the page, the walk is the next `limit` rows followed by the walk from the returned cursor. |
| ArtistsRouter.WalkLast | src/server/api/routers/artists.ts:84-92 | When no rows remain past the page, the walk ends with the rows from the cursor to the end. |
| ArtistsRouter.WalkCoversRows | src/server/api/routers/artists.ts:84-92 | Following the cursors from any cursor visits the remaining rows once each, in order. |
| ArtistsRouter.WalkFromStart | src/server/api/routers/artists.ts:84-92 | Following the cursors from 0 concatenates to the whole ordered list. |
| ArtistsRouter.ResolveLimit | src/server/api/routers/artists.ts:8 | The limit takes its default when absent. It is rejected iff given outside `[1, max]`. A given limit that passes is used as given. |
| ArtistsRouter.GetArtistCards | src/server/api/routers/artists.ts:66-98 | The limit is 1..100, default 50. The page is the slice of the artist's ordered cards from the cursor, at most `limit` long. A cursor past the end gives an empty page. The next cursor is set iff more cards remain, and is then `cursor + limit`. |
| ArtistsRouter.Keep | src/server/api/routers/artists.ts:48-53 | A row is kept iff it has an oldest date and its name has a character that is not white space. |
| ArtistsRouter.KeptGroups | src/server/api/routers/artists.ts:47-53 | A row is kept iff it is one of the grouped rows, its trimmed name is non-empty and it has an oldest date. |
| ArtistsRouter.KeptGroupsAppend | src/server/api/routers/artists.ts:47-53 | Filtering a concatenation filters each part and concatenates the results, so kept rows stay in page order. |
| ArtistsRouter.KeptGroupsSingle | src/server/api/routers/artists.ts:47-53 | A single row is kept, as itself, exactly when it passes the filter. |
| ArtistsRouter.ToArtist | src/server/api/routers/artists.ts:54-58 | A kept row's entry has a non-empty name that is already trimmed. |
| ArtistsRouter.ShapeArtists | src/server/api/routers/artists.ts:47-58 | There is one entry per kept row, in page order. Each entry carries the row's trimmed name, oldest date and count. |
| ArtistsRouter.GetArtists | src/server/api/routers/artists.ts:12-63 | The limit is 1..50, default 20. The next cursor follows the paging rule over the grouped rows. At most `limit` artists are returned, each with a trimmed, non-empty name, shaped from the page's rows. |
| ArtistsRouter.ShortPageWithCursor | src/server/api/routers/artists.ts:41-58 | A one-row page whose artist name is blank returns no artists, but still returns a next cursor. |

## Left out

- The React and Next.js pages and components, the NextAuth configuration, the database client, the router wiring and the seed and export scripts are not modelled. They render UI or perform I/O. The paging loop in `scripts/export-artists.ts` repeats the one in the artists router.
- The trigram `similarity` query of `searchCards` is a database function. Only the threshold choice and the input checks are modelled. The ranking, the grouping and the `{value, label}` mapping of the rows are not.
- The `setInterval` timer that runs `cleanup` every ten minutes is not modelled, because it only schedules. `cleanup` itself is modelled.
- `getAllFormats` returns a copy of the table. In a value model that is the table itself, so it has no member.
- JavaScript number details are not modelled. Values are exact integers and reals: there is no floating-point rounding in `x / 233280` or in `Math.random() * d`, and no precision loss above 2^53. Card counts, limits and cursors are integers, so a fractional `cardCount` or `limit` accepted by the input schema is not modelled.
- SeededRandom.GetRandomOffset: the offset bound is stated only for no seed or a non-negative seed. A negative seed can give a negative offset, as `NegativeSeedNegativeOffset` shows. No caller in the router passes a seed.
- QuizRouter.Lower: lowers only the letters A-Z. Unicode case mapping is not modelled.
- QuizRouter.IsCorrect: folds case only for A-Z. JavaScript's `toLowerCase` folds every cased letter, so the source grades "éowyn, fearless knight" correct against "Éowyn, Fearless Knight", and the model does not.
- QuizRouter.CorrectAnswerSameLength: holds for the A-Z lowering only. JavaScript's `toLowerCase` can change a string's length, for example 'İ' (U+0130) lowers to two code units, so the real comparison can accept answers of a different length.
- QuizFormats.BuildFormatWhereClause: uses the corrected colourless branch of `CompileFilter`, an `OR` of the colour condition and "colours are empty". As written, a colourless filter gives no finite clause; `BuildFormatWhereClauseAsWritten` models that.
- ArtistsRouter.GetArtistCards: cursors are natural numbers. The input schema accepts any number (src/server/api/routers/artists.ts:71), but the store's handling of a negative or fractional `skip` is not modelled.
- ArtistsRouter.GetArtists: cursors are natural numbers, as for `GetArtistCards`. A negative or fractional cursor accepted at src/server/api/routers/artists.ts:9 is not modelled.
- The current time is not modelled. The 'recent' format's lower bound (January 1st five years back, in local time) is the parameter `recentStart`.
- The 'multicolor' custom clause is transcribed into the where-clause tree. Its `AND: { OR: [...] }` is an `And` of one `Or`.
- Card fields are non-null. The database schema is not part of this model.
- `createQuiz` reads the count and the rows at two moments, so it is modelled with two inputs. The backfill sees the same rows as the first fetch.
- Quiz ownership is not modelled. `submitAnswer` and `completeQuiz` check neither ownership nor completion, and neither does the model. A missing quiz fails the answer insert and the completion update. `createdAt` and the answer timestamps are database defaults and are not modelled.
- Only the text length of a search query is used. JavaScript counts UTF-16 code units, and the model counts characters.

## Findings

| source | as written | input that shows it | evidently intended | confidence | as-written member | corrected member |
|---|---|---|---|---|---|---|
| middleware.ts:40-42 | The signed-in redirect away from `/auth/signin` comes after the public-route check. `/auth/signin` always passes that check, so the redirect never fires (`RedirectHomeUnreachable`, `SignedInSigninNotRedirected`). | pathname `/auth/signin` with a session: the guard returns Next | a signed-in visitor to `/auth/signin` is sent to `/` | medium, not executed | Middleware.Decide | Middleware.DecideIntended |
| src/lib/quiz-formats.ts:178-180 | `colorCondition.OR = [colorCondition, …]` puts the condition inside its own `OR` list, so the query object is cyclic. No finite where-clause is that object (`ColorlessObjectIsCyclic`), so a format with such a filter has no clause either (`BuildFormatWhereClauseAsWritten`). | a COLOR filter with colors `["W"]` and `includeColorless: true` | colors share one of the filter's colours OR colors are empty | high, not executed | QuizFormats.CompileFilterAsWritten | QuizFormats.CompileFilter |

=== FILE: artists_router.dfy ===
/**
 * The artists router: offset paging over ordered rows (`take: limit + 1`,
 * pop the extra row, `nextCursor = offset + limit`) and the shaping of the
 * grouped artist rows into trimmed artist entries. The grouped and ordered
 * rows the store returns are parameters.
 */
module ArtistsRouter {
  import opened Wrappers
  import opened Sequences
  import opened Cards

  /** The characters `String.prototype.trim` removes: white space and line terminators. */
  predicate IsSpace(c: char): (space: bool)
    ensures space ==> 0x09 <= c as int <= 0xFEFF
    ensures space ==> !('0' <= c <= '9' || 'A' <= c <= 'Z' || 'a' <= c <= 'z')
  {
    var n := c as int;
    || 0x09 <= n <= 0x0D       // tab, line feed, vertical tab, form feed, carriage return
    || n == 0x20 || n == 0xA0  // space, no-break space
    || n == 0x1680 || 0x2000 <= n <= 0x200A || n == 0x202F || n == 0x205F || n == 0x3000
    || n == 0x2028 || n == 0x2029  // line and paragraph separators
    || n == 0xFEFF             // byte order mark
  }

  /** Where the content of `s` starts: the number of leading white-space characters. */
  function ContentStart(s: string): (i: nat)
    ensures i <= |s|
    ensures forall k :: 0 <= k < i ==> IsSpace(s[k])
    ensures i < |s| ==> !IsSpace(s[i])
  {
    if |s| == 0 || !IsSpace(s[0]) then 0 else 1 + ContentStart(s[1..])
  }

  /**
   * Where the content of `s[lo..hi]` ends: `hi` less the white space at the
   * end of that range.
   */
  function ContentEnd(s: string, lo: nat, hi: nat): (j: nat)
    requires lo <= hi <= |s|
    ensures lo <= j <= hi
    ensures forall k :: j <= k < hi ==> IsSpace(s[k])
    ensures j > lo ==> !IsSpace(s[j - 1])
    decreases hi
  {
    if hi > lo && IsSpace(s[hi - 1]) then ContentEnd(s, lo, hi - 1) else hi
  }

  /**
   * `trim()`: the middle of the string, with only white space cut from
   * either end, and no white space left at either end.
   */
  function Trim(s: string): (r: string)
    ensures exists i, j ::
      && 0 <= i <= j <= |s|
      && r == s[i..j]
      && (forall k :: 0 <= k < i ==> IsSpace(s[k]))
      && (forall k :: j <= k < |s| ==> IsSpace(s[k]))
    ensures |r| > 0 ==> !IsSpace(r[0]) && !IsSpace(r[|r| - 1])
    ensures r == "" <==> forall k :: 0 <= k < |s| ==> IsSpace(s[k])
  {
    var i := ContentStart(s);
    var j := ContentEnd(s, i, |s|);
    s[i..j]
  }

  /** Trimming a trimmed string changes nothing. */
  lemma TrimIdempotent(s: string)
    ensures Trim(Trim(s)) == Trim(s)
  {
    var r := Trim(s);
    if |r| > 0 {
      assert ContentStart(r) == 0;
      assert ContentEnd(r, 0, |r|) == |r|;
    }
  }

  /** One page of rows and the cursor of the next page, if any. */
  datatype Page<T> = Page(items: seq<T>, nextCursor: Option<nat>)

  /**
   * Offset paging: fetch up to `limit + 1` rows from `offset`; an extra row
   * means there is a next page, so drop it and point the cursor past this page.
   */
  function Paginate<T>(rows: seq<T>, limit: nat, offset: nat): (p: Page<T>)
    requires limit >= 1
    ensures offset <= |rows| ==>
      p.items == rows[offset..if offset + limit <= |rows| then offset + limit else |rows|]
    ensures offset > |rows| ==> p.items == []
    ensures |p.items| <= limit
    ensures p.nextCursor.Some? <==> |rows| > offset + limit
    ensures p.nextCursor.Some? ==> p.nextCursor.value == offset + limit && |p.items| == limit
  {
    var fetched := Take(Skip(rows, offset), limit + 1);
    if |fetched| > limit then Page(fetched[..limit], Some(offset + limit)) else Page(fetched, None)
  }

  /** The rows seen by following the cursors from `cursor` until no cursor is returned. */
  function Walk<T>(rows: seq<T>, limit: nat, cursor: nat): seq<T>
    requires limit >= 1
    decreases |rows| - cursor
  {
    var p := Paginate(rows, limit, cursor);
    match p.nextCursor
    case None => p.items
    case Some(next) => p.items + Walk(rows, limit, next)
  }

  /** A page with a next cursor is the next `limit` rows, followed by the walk from the cursor. */
  lemma WalkStep<T>(rows: seq<T>, limit: nat, cursor: nat)
    requires limit >= 1
    requires cursor + limit < |rows|
    ensures Walk(rows, limit, cursor) == rows[cursor..cursor + limit] + Walk(rows, limit, cursor + limit)
  {
  }

  /** The last page is everything from the cursor on. */
  lemma WalkLast<T>(rows: seq<T>, limit: nat, cursor: nat)
    requires limit >= 1
    requires cursor <= |rows| <= cursor + limit
    ensures Walk(rows, limit, cursor) == rows[cursor..]
  {
  }

  /** If the walk from the next cursor covers the rest, the walk from this cursor covers its rest. */
  lemma WalkExtends<T>(rows: seq<T>, limit: nat, cursor: nat)
    requires limit >= 1
    requires cursor + limit < |rows|
    requires Walk(rows, limit, cursor + limit) == rows[cursor + limit..]
    ensures Walk(rows, limit, cursor) == rows[cursor..]
  {
    calc {
      Walk(rows, limit, cursor);
      { WalkStep(rows, limit, cursor); }
      rows[cursor..cursor + limit] + Walk(rows, limit, cursor + limit);
      rows[cursor..cursor + limit] + rows[cursor + limit..];
      { SuffixSplit(rows, cursor, cursor + limit); }
      rows[cursor..];
    }
  }

  /** Following the cursors from `cursor` visits every remaining row once, in order. */
  lemma {:induction false} WalkCoversRows<T>(rows: seq<T>, limit: nat, cursor: nat)
    requires limit >= 1
    requires cursor <= |rows|
    ensures Walk(rows, limit, cursor) == rows[cursor..]
    decreases |rows| - cursor
  {
    if cursor + limit < |rows| {
      WalkCoversRows(rows, limit, cursor + limit);
      WalkExtends(rows, limit, cursor);
    } else {
      WalkLast(rows, limit, cursor);
    }
  }

  /** Paging from the first row returns the whole ordered list. */
  lemma WalkFromStart<T>(rows: seq<T>, limit: nat)
    requires limit >= 1
    ensures Walk(rows, limit, 0) == rows
  {
    WalkCoversRows(rows, limit, 0);
  }

  datatype ArtistsError = InvalidLimit

  /** The `limit` input: a default, rejected outside `[1, max]`. */
  function ResolveLimit(limit: Option<int>, default: nat, max: nat): (r: Result<nat, ArtistsError>)
    requires 1 <= default <= max
    ensures r.Success? ==> 1 <= r.value <= max
    ensures r.Failure? <==> limit.Some? && !(1 <= limit.value <= max)
    ensures limit.None? ==> r == Success(default)
    ensures r.Success? && limit.Some? ==> r.value == limit.value
  {
    match limit
    case None => Success(default)
    case Some(n) => if 1 <= n <= max then Success(n) else Failure(InvalidLimit)
  }

  /**
   * `getArtistCards`: one page of the artist's cards, oldest first (`cards`
   * is that ordered list); limit 1 to 100, default 50.
   */
  function GetArtistCards(cards: seq<Card>, limit: Option<int>, cursor: Option<nat>)
    : (r: Result<Page<Card>, ArtistsError>)
    ensures r.Failure? <==> limit.Some? && !(1 <= limit.value <= 100)
    ensures r.Success? ==>
      var n := limit.GetOr(50);
      var offset := cursor.GetOr(0);
      && |r.value.items| <= n
      && (offset <= |cards| ==> r.value.items == cards[offset..if offset + n <= |cards| then offset + n else |cards|])
      && (offset > |cards| ==> r.value.items == [])
      && (r.value.nextCursor.Some? <==> |cards| > offset + n)
      && (r.value.nextCursor.Some? ==> r.value.nextCursor.value == offset + n)
  {
    match ResolveLimit(limit, 50, 100)
    case Failure(e) => Failure(e)
    case Success(n) => Success(Paginate(cards, n, cursor.GetOr(0)))
  }

  /** One row of the artist grouping: name, card count, oldest release date if any. */
  datatype ArtistGroup = ArtistGroup(artist: string, count: nat, oldest: Option<Date>)

  /** An artist entry of the response. */
  datatype Artist = Artist(name: string, oldestCardDate: Date, cardCount: nat)

  /** The rows the response keeps: a name that is not blank and an oldest date. */
  predicate Keep(g: ArtistGroup): (keep: bool)
    ensures keep <==> g.oldest.Some? && exists k :: 0 <= k < |g.artist| && !IsSpace(g.artist[k])
  {
    Trim(g.artist) != "" && g.oldest.Some?
  }

  /** The kept rows, in page order (`filter`). */
  function KeptGroups(groups: seq<ArtistGroup>): (kept: seq<ArtistGroup>)
    ensures |kept| <= |groups|
    ensures forall g :: g in kept <==> g in groups && Keep(g)
  {
    if |groups| == 0 then []
    else if Keep(groups[0]) then [groups[0]] + KeptGroups(groups[1..])
    else KeptGroups(groups[1..])
  }

  /** Filtering a concatenation filters each part: the kept rows keep their page order. */
  lemma {:induction false} KeptGroupsAppend(a: seq<ArtistGroup>, b: seq<ArtistGroup>)
    ensures KeptGroups(a + b) == KeptGroups(a) + KeptGroups(b)
    decreases |a|
  {
    if |a| == 0 {
      assert a + b == b;
    } else {
      assert (a + b)[0] == a[0];
      assert (a + b)[1..] == a[1..] + b;
      KeptGroupsAppend(a[1..], b);
    }
  }

  /** A single row is kept exactly when it passes `Keep`. */
  lemma KeptGroupsSingle(g: ArtistGroup)
    ensures KeptGroups([g]) == if Keep(g) then [g] else []
  {
    assert [g][1..] == [];
  }

  /** Each kept row, by position, comes from the page and passes `Keep`. */
  lemma KeptGroupsIndexed(groups: seq<ArtistGroup>)
    ensures forall i :: 0 <= i < |KeptGroups(groups)| ==>
      KeptGroups(groups)[i] in groups && Keep(KeptGroups(groups)[i])
  {
    var kept := KeptGroups(groups);
    forall i | 0 <= i < |kept|
      ensures kept[i] in groups && Keep(kept[i])
    {
      assert kept[i] in kept;
    }
  }

  /** The entry for a kept row: trimmed name, oldest date, count (`map`). */
  function ToArtist(g: ArtistGroup): (a: Artist)
    requires Keep(g)
    ensures a.name != "" && Trim(a.name) == a.name
  {
    TrimIdempotent(g.artist);
    Artist(Trim(g.artist), g.oldest.value, g.count)
  }

  /** The filter-then-map of the page rows, in page order. */
  function ShapeArtists(groups: seq<ArtistGroup>): (artists: seq<Artist>)
    ensures |artists| == |KeptGroups(groups)| <= |groups|
    ensures forall i :: 0 <= i < |artists| ==>
      && KeptGroups(groups)[i] in groups
      && artists[i].name != "" && Trim(artists[i].name) == artists[i].name
      && artists[i].name == Trim(KeptGroups(groups)[i].artist)
      && Some(artists[i].oldestCardDate) == KeptGroups(groups)[i].oldest
      && artists[i].cardCount == KeptGroups(groups)[i].count
  {
    var kept := KeptGroups(groups);
    KeptGroupsIndexed(groups);
    seq(|kept|, i requires 0 <= i < |kept| => ToArtist(kept[i]))
  }

  /** What `getArtists` returns. */
  datatype ArtistsPage = ArtistsPage(artists: seq<Artist>, nextCursor: Option<nat>)

  /**
   * `getArtists`: one page of the grouped rows (`groups`, ordered by oldest
   * release), limit 1 to 50, default 20, then the blank and undated rows
   * dropped and names trimmed. Dropping happens after paging, so a page can
   * be short while a next cursor is set.
   */
  function GetArtists(groups: seq<ArtistGroup>, limit: Option<int>, cursor: Option<nat>)
    : (r: Result<ArtistsPage, ArtistsError>)
    ensures r.Failure? <==> limit.Some? && !(1 <= limit.value <= 50)
    ensures r.Success? ==>
      var n := limit.GetOr(20);
      var offset := cursor.GetOr(0);
      var page := Paginate(groups, n, offset);
      && |r.value.artists| <= n
      && (r.value.nextCursor.Some? <==> |groups| > offset + n)
      && (r.value.nextCursor.Some? ==> r.value.nextCursor.value == offset + n)
      && r.value.artists == ShapeArtists(page.items)
      && (forall i :: 0 <= i < |r.value.artists| ==>
            r.value.artists[i].name != "" && Trim(r.value.artists[i].name) == r.value.artists[i].name)
  {
    match ResolveLimit(limit, 20, 50)
    case Failure(e) => Failure(e)
    case Success(n) =>
      var page := Paginate(groups, n, cursor.GetOr(0));
      Success(ArtistsPage(ShapeArtists(page.items), page.nextCursor))
  }

  /** A full page of blank names yields no artists yet still a next cursor. */
  lemma ShortPageWithCursor()
    ensures var groups := [ArtistGroup(" ", 1, Some(0)), ArtistGroup("Rebecca Guay", 3, Some(1))];
      GetArtists(groups, Some(1), None) == Success(ArtistsPage([], Some(1)))
  {
    var groups := [ArtistGroup(" ", 1, Some(0)), ArtistGroup("Rebecca Guay", 3, Some(1))];
    assert Trim(" ") == "";
    assert Paginate(groups, 1, 0).items == [groups[0]];
  }
}

=== FILE: cards.dfy ===
/**
 * The card record the routers and the format filters read. Only the fields
 * the modelled logic touches are kept; the database fills them all.
 */
module Cards {

  /** An instant, in milliseconds since the Unix epoch. */
  type Date = int

  /** A card row: its id, name, artist, release date, set type and colours. */
  datatype Card = Card(
    id: string,
    name: string,
    artist: string,
    releasedAt: Date,
    setType: string,
    colors: seq<string>)
}

=== FILE: middleware.dfy ===
/**
 * The route guard run before every page: public and asset paths pass,
 * protected pages need a session, and everything else passes. The session
 * lookup is the boolean `hasSession`.
 */
module Middleware {

  /** What the guard answers: continue, or redirect. */
  datatype Route =
    | Next
    | RedirectSignin(callbackUrl: string)  // `/auth/signin?callbackUrl=<pathname>`
    | RedirectHome                          // `/`

  const ProtectedRoutes: seq<string> := ["/quiz", "/cards"]
  const PublicRoutes: seq<string> := ["/auth/signin", "/api/auth"]

  /** Paths that always pass: the public routes, API and framework paths, and anything with a dot. */
  predicate IsOpenPath(pathname: string): (open: bool)
    ensures open <==>
      || "/auth/signin" <= pathname
      || "/api/" <= pathname
      || "/_next/" <= pathname
      || '.' in pathname
  {
    assert PublicRoutes[0] == "/auth/signin";
    assert "/api/auth" <= pathname ==> "/api/" <= pathname by {
      if "/api/auth" <= pathname {
        assert pathname[..5] == "/api/auth"[..5];
      }
    }
    || (exists i :: 0 <= i < |PublicRoutes| && PublicRoutes[i] <= pathname)
    || "/api/" <= pathname
    || "/_next/" <= pathname
    || '.' in pathname
  }

  /** A protected route itself, or any path below it. */
  predicate IsProtectedRoute(pathname: string): (protected: bool)
    ensures protected <==>
      || pathname == "/quiz" || "/quiz/" <= pathname
      || pathname == "/cards" || "/cards/" <= pathname
  {
    assert ProtectedRoutes[0] + "/" == "/quiz/";
    assert ProtectedRoutes[1] + "/" == "/cards/";
    exists i :: 0 <= i < |ProtectedRoutes| &&
      (pathname == ProtectedRoutes[i] || ProtectedRoutes[i] + "/" <= pathname)
  }

  /**
   * `middleware`, as the source orders its checks. The signed-in redirect
   * away from `/auth/signin` comes after the open-path check, which
   * `/auth/signin` always passes, so it never fires.
   */
  function Decide(pathname: string, hasSession: bool): (r: Route)
    ensures r.RedirectSignin? <==> !IsOpenPath(pathname) && IsProtectedRoute(pathname) && !hasSession
    ensures r.RedirectSignin? ==> r.callbackUrl == pathname
    ensures r == RedirectHome ==> hasSession && pathname == "/auth/signin"
  {
    if IsOpenPath(pathname) then Next
    else if IsProtectedRoute(pathname) && !hasSession then RedirectSignin(pathname)
    else if hasSession && pathname == "/auth/signin" then RedirectHome
    else Next
  }

  /**
   * The redirect home is unreachable: `/auth/signin` is a public route, so a
   * signed-in visit there has already passed. With a session the guard always
   * continues.
   */
  lemma RedirectHomeUnreachable(pathname: string, hasSession: bool)
    ensures Decide(pathname, hasSession) != RedirectHome
    ensures hasSession ==> Decide(pathname, hasSession) == Next
  {
    if pathname == "/auth/signin" {
      assert PublicRoutes[0] <= pathname;
    }
  }

  /** Open paths pass with or without a session. */
  lemma OpenPathsPass(pathname: string, hasSession: bool)
    requires || "/auth/signin" <= pathname || "/api/auth" <= pathname
             || "/api/" <= pathname || "/_next/" <= pathname || '.' in pathname
    ensures Decide(pathname, hasSession) == Next
  {
    if "/api/auth" <= pathname {
      assert PublicRoutes[1] <= pathname;
    } else if "/auth/signin" <= pathname {
      assert PublicRoutes[0] <= pathname;
    }
  }

  /** `/quizzes` shares a prefix with `/quiz` but is not protected. */
  lemma QuizzesNotProtected()
    ensures !IsProtectedRoute("/quizzes")
    ensures Decide("/quizzes", false) == Next
  {
    assert !("/quiz/" <= "/quizzes") by {
      assert "/quizzes"[5] != "/quiz/"[5];
    }
  }

  /** A signed-out visit to a quiz page is sent to sign-in with the page as callback. */
  lemma SignedOutQuizPageRedirects()
    ensures Decide("/quiz/abc", false) == RedirectSignin("/quiz/abc")
  {
    assert "/quiz/" <= "/quiz/abc";
    assert !IsOpenPath("/quiz/abc") by {
      assert !("/auth/signin" <= "/quiz/abc") by { assert "/quiz/abc"[1] != "/auth/signin"[1]; }
      assert !("/api/auth" <= "/quiz/abc") by { assert "/quiz/abc"[1] != "/api/auth"[1]; }
      assert !("/api/" <= "/quiz/abc") by { assert "/quiz/abc"[1] != "/api/"[1]; }
      assert !("/_next/" <= "/quiz/abc") by { assert "/quiz/abc"[1] != "/_next/"[1]; }
      assert forall k :: 0 <= k < |"/quiz/abc"| ==> "/quiz/abc"[k] != '.';
    }
  }

  /** A dot anywhere opens the path, even below a protected route. */
  lemma DottedPathBypassesGuard()
    ensures Decide("/quiz/a.b", false) == Next
  {
    assert "/quiz/a.b"[7] == '.';
    OpenPathsPass("/quiz/a.b", false);
  }

  /** A signed-in visit to the sign-in page is let through, not sent home. */
  lemma SignedInSigninNotRedirected()
    ensures Decide("/auth/signin", true) == Next
  {
    RedirectHomeUnreachable("/auth/signin", true);
  }

  /** The guard with the signed-in check placed before the open-path check. */
  function DecideIntended(pathname: string, hasSession: bool): (r: Route)
    ensures r == RedirectHome <==> hasSession && pathname == "/auth/signin"
    ensures r.RedirectSignin? <==> !IsOpenPath(pathname) && IsProtectedRoute(pathname) && !hasSession
    ensures !(hasSession && pathname == "/auth/signin") ==> r == Decide(pathname, hasSession)
  {
    RedirectHomeUnreachable(pathname, hasSession);
    if hasSession && pathname == "/auth/signin" then RedirectHome
    else if IsOpenPath(pathname) then Next
    else if IsProtectedRoute(pathname) && !hasSession then RedirectSignin(pathname)
    else Next
  }
}

=== FILE: quiz_formats.dfy ===
/**
 * Quiz formats: the static table of named formats, the filter union they are
 * built from, and the compiler from filters to a card where-clause.
 *
 * A where-clause is modelled as a tree with a matching semantics over cards,
 * standing in for the query object the data layer receives.
 */
module QuizFormats {
  import opened Wrappers
  import opened Cards

  /** The subset of the card where-input the formats produce. */
  datatype WhereClause =
    | Everything                                       // `{}`
    | ReleasedAt(gte: Option<Date>, lt: Option<Date>)  // `{ releasedAt: { gte?, lt? } }`
    | SetTypeIn(setTypes: seq<string>)                 // `{ setType: { in } }`
    | ColorsHasSome(anyOf: seq<string>)                // `{ colors: { hasSome } }`
    | ColorsHasEvery(allOf: seq<string>)               // `{ colors: { hasEvery } }`
    | ColorsIsEmpty(empty: bool)                       // `{ colors: { isEmpty } }`
    | And(conjuncts: seq<WhereClause>)                 // `{ AND: [...] }`
    | Or(disjuncts: seq<WhereClause>)                  // `{ OR: [...] }`

  /** Does a list share an element with another? */
  predicate Intersects(xs: seq<string>, ys: seq<string>) {
    exists i :: 0 <= i < |xs| && xs[i] in ys
  }

  /** Whether the data layer returns `card` for `where`. */
  predicate Matches(card: Card, where: WhereClause)
    decreases where
  {
    match where
    case Everything => true
    case ReleasedAt(gte, lt) =>
      (gte.None? || card.releasedAt >= gte.value) && (lt.None? || card.releasedAt < lt.value)
    case SetTypeIn(setTypes) => card.setType in setTypes
    case ColorsHasSome(anyOf) => Intersects(anyOf, card.colors)
    case ColorsHasEvery(allOf) => forall i :: 0 <= i < |allOf| ==> allOf[i] in card.colors
    case ColorsIsEmpty(empty) => (|card.colors| == 0) == empty
    case And(conjuncts) => forall i :: 0 <= i < |conjuncts| ==> Matches(card, conjuncts[i])
    case Or(disjuncts) => exists i :: 0 <= i < |disjuncts| && Matches(card, disjuncts[i])
  }

  /** One clause of a format. An absent `includeColorless` is `false`. */
  datatype FormatFilter =
    | DateRange(releasedAfter: Option<Date>, releasedBefore: Option<Date>)
    | SetType(setTypes: seq<string>)
    | Color(colors: seq<string>, includeColorless: bool)
    | Custom(whereClause: WhereClause)

  datatype QuizFormat = QuizFormat(
    id: string,
    name: string,
    description: string,
    filters: seq<FormatFilter>,
    isActive: bool)

  /**
   * What a filter is meant to admit, stated on the card's fields: an inclusive
   * lower and exclusive upper release bound, set-type membership, a shared
   * colour (or no colour at all when colourless cards are included).
   */
  predicate Admits(f: FormatFilter, card: Card) {
    match f
    case DateRange(after, before) =>
      (after.None? || after.value <= card.releasedAt) && (before.None? || card.releasedAt < before.value)
    case SetType(setTypes) => card.setType in setTypes
    case Color(colors, includeColorless) =>
      |colors| == 0 || Intersects(colors, card.colors) || (includeColorless && |card.colors| == 0)
    case Custom(w) => Matches(card, w)
  }

  /** A two-way `OR` matches when either side does. */
  lemma OrOfTwo(a: WhereClause, b: WhereClause)
    ensures forall card :: Matches(card, Or([a, b])) <==> Matches(card, a) || Matches(card, b)
  {
    forall card
      ensures Matches(card, Or([a, b])) <==> Matches(card, a) || Matches(card, b)
    {
      var ds := [a, b];
      assert ds[0] == a && ds[1] == b;
    }
  }

  /** The condition one filter compiles to (colourless inclusion as an `OR` of two clauses). */
  function CompileFilter(f: FormatFilter): (w: WhereClause)
    ensures forall card :: Matches(card, w) <==> Admits(f, card)
    ensures f.DateRange? && f.releasedAfter.None? && f.releasedBefore.None? ==> w == Everything
    ensures f.Custom? ==> w == f.whereClause
  {
    match f
    case DateRange(after, before) =>
      if after.None? && before.None? then Everything else ReleasedAt(after, before)
    case SetType(setTypes) => SetTypeIn(setTypes)
    case Color(colors, includeColorless) =>
      var some := if |colors| > 0 then ColorsHasSome(colors) else Everything;
      OrOfTwo(some, ColorsIsEmpty(true));
      if includeColorless then Or([some, ColorsIsEmpty(true)]) else some
    case Custom(w) => w
  }

  /** The per-filter conditions, in filter order. */
  function CompileAll(filters: seq<FormatFilter>): (ws: seq<WhereClause>)
    ensures |ws| == |filters|
    ensures forall i :: 0 <= i < |filters| ==> ws[i] == CompileFilter(filters[i])
  {
    seq(|filters|, i requires 0 <= i < |filters| => CompileFilter(filters[i]))
  }

  /**
   * `buildFormatWhereClause`: no filters give `{}`, one filter gives its own
   * condition unwrapped, several give the `AND` of their conditions in order.
   */
  function BuildFormatWhereClause(format: QuizFormat): (w: WhereClause)
    ensures forall card :: Matches(card, w) <==>
      forall i :: 0 <= i < |format.filters| ==> Admits(format.filters[i], card)
    ensures |format.filters| == 0 ==> w == Everything
    ensures |format.filters| == 1 ==> w == CompileFilter(format.filters[0])
    ensures |format.filters| >= 2 ==> w.And? && w.conjuncts == CompileAll(format.filters)
  {
    if |format.filters| == 0 then Everything
    else
      var conditions := CompileAll(format.filters);
      if |conditions| == 1 then conditions[0] else And(conditions)
  }

  /**
   * The condition the colour branch builds when colourless cards are included,
   * given the object `self` it places inside its own `OR` list.
   */
  function ColorlessObject(colors: seq<string>, self: WhereClause): WhereClause {
    if |colors| > 0 then And([ColorsHasSome(colors), Or([self, ColorsIsEmpty(true)])])
    else Or([self, ColorsIsEmpty(true)])
  }

  /** No finite where-clause is the object the colour branch builds: it contains itself. */
  lemma ColorlessObjectIsCyclic(colors: seq<string>, w: WhereClause)
    ensures w != ColorlessObject(colors, w)
  {
    var inner := Or([w, ColorsIsEmpty(true)]);
    assert [w, ColorsIsEmpty(true)][0] == w;
    assert w < inner;
    if |colors| > 0 {
      assert [ColorsHasSome(colors), inner][1] == inner;
    }
  }

  /**
   * The filter compiler as the source writes it. A colour filter with
   * `includeColorless` builds a self-containing object that no where-clause
   * represents (`None`); every other filter compiles as `CompileFilter` does.
   */
  function CompileFilterAsWritten(f: FormatFilter): (w: Option<WhereClause>)
    ensures w.None? <==> IncludesColorless(f)
    ensures w.Some? ==> forall card :: Matches(card, w.value) <==> Admits(f, card)
    ensures w.Some? ==> w.value == CompileFilter(f)
  {
    match f
    case Color(colors, true) => None
    case _ => Some(CompileFilter(f))
  }

  /** A colour filter that also asks for colourless cards. */
  predicate IncludesColorless(f: FormatFilter) {
    f.Color? && f.includeColorless
  }

  /** The per-filter conditions as the source builds them: none exists once a filter is colourless. */
  function CompileAllAsWritten(filters: seq<FormatFilter>): (r: Option<seq<WhereClause>>)
    ensures r.None? <==> exists i :: 0 <= i < |filters| && IncludesColorless(filters[i])
    ensures r.Some? ==> r.value == CompileAll(filters)
    decreases |filters|
  {
    if |filters| == 0 then Some([])
    else
      var head := CompileFilterAsWritten(filters[0]);
      var tail := CompileAllAsWritten(filters[1..]);
      assert forall i :: 1 <= i < |filters| ==> filters[i] == filters[1..][i - 1];
      if head.None? || tail.None? then None
      else
        assert [head.value] + tail.value == CompileAll(filters);
        Some([head.value] + tail.value)
  }

  /**
   * `buildFormatWhereClause` as the source writes it: no finite clause when
   * some filter is colourless, and otherwise the clause the corrected
   * compiler builds.
   */
  function BuildFormatWhereClauseAsWritten(format: QuizFormat): (w: Option<WhereClause>)
    ensures w.None? <==> exists i :: 0 <= i < |format.filters| && IncludesColorless(format.filters[i])
    ensures w.Some? ==> w.value == BuildFormatWhereClause(format)
    ensures w.Some? ==> forall card :: Matches(card, w.value) <==>
      forall i :: 0 <= i < |format.filters| ==> Admits(format.filters[i], card)
  {
    if |format.filters| == 0 then Some(Everything)
    else
      match CompileAllAsWritten(format.filters)
      case None => None
      case Some(conditions) =>
        Some(if |conditions| == 1 then conditions[0] else And(conditions))
  }

  /** The rule `validateFormat` applies to one filter; custom filters always pass. */
  predicate FilterWellFormed(f: FormatFilter) {
    match f
    case DateRange(after, before) => !(after.Some? && before.Some? && after.value >= before.value)
    case SetType(setTypes) => |setTypes| > 0
    case Color(colors, _) => |colors| > 0
    case Custom(_) => true
  }

  /** The filter loop of `validateFormat`: stops at the first rejected filter. */
  function FiltersValid(filters: seq<FormatFilter>): (ok: bool)
    ensures ok <==> forall i :: 0 <= i < |filters| ==> FilterWellFormed(filters[i])
  {
    if |filters| == 0 then true
    else if !FilterWellFormed(filters[0]) then false
    else FiltersValid(filters[1..])
  }

  /**
   * `validateFormat`: false exactly when the id, name or description is empty,
   * a date range has both bounds with `after >= before`, or a set-type or
   * colour list is empty.
   */
  function ValidateFormat(format: QuizFormat): (ok: bool)
    ensures !ok <==>
      || format.id == ""
      || format.name == ""
      || format.description == ""
      || exists i :: 0 <= i < |format.filters| && !FilterWellFormed(format.filters[i])
  {
    if format.id == "" || format.name == "" || format.description == "" then false
    else FiltersValid(format.filters)
  }

  /** `new Date('1996-01-01')`. */
  const ClassicCutoff: Date := 820454400000
  /** `new Date('2003-07-28')`. */
  const ModernStart: Date := 1059350400000

  /** The two-colour pairs of the multicolour format. */
  function ColorPairs(): seq<WhereClause> {
    [ ColorsHasEvery(["W", "U"]), ColorsHasEvery(["W", "B"]), ColorsHasEvery(["W", "R"]),
      ColorsHasEvery(["W", "G"]), ColorsHasEvery(["U", "B"]), ColorsHasEvery(["U", "R"]),
      ColorsHasEvery(["U", "G"]), ColorsHasEvery(["B", "R"]), ColorsHasEvery(["B", "G"]),
      ColorsHasEvery(["R", "G"]) ]
  }

  /**
   * `QUIZ_FORMATS`. The 'recent' entry's lower bound is January 1st, five
   * years before the current year, in local time; it is the parameter
   * `recentStart`.
   */
  function QuizFormatsTable(recentStart: Date): (table: seq<QuizFormat>)
    ensures |table| == 6
    ensures forall i, j :: 0 <= i < j < |table| ==> table[i].id != table[j].id
    ensures forall i :: 0 <= i < |table| ==> (table[i].isActive <==> i < 5)
  {
    [ QuizFormat("classic", "Classic Format",
        "Cards released before 1996 - the original Magic experience",
        [DateRange(None, Some(ClassicCutoff))], true),
      QuizFormat("modern", "Modern Format",
        "Cards from 2003 onwards - competitive Modern format",
        [DateRange(Some(ModernStart), None)], true),
      QuizFormat("recent", "Recent Cards", "Cards from the last 5 years",
        [DateRange(Some(recentStart), None)], true),
      QuizFormat("vintage", "Vintage Collection", "All cards throughout Magic history",
        [], true),
      QuizFormat("core-sets", "Core Sets Only", "Cards from core sets and basic sets",
        [SetType(["core", "starter"])], true),
      QuizFormat("multicolor", "Multicolor Cards", "Cards with multiple colors",
        [Custom(And([ColorsIsEmpty(false), And([Or(ColorPairs())])]))], false) ]
  }

  /** Every configured format passes `validateFormat`, whatever the current year. */
  lemma ConfiguredFormatsValid(recentStart: Date)
    ensures forall k :: 0 <= k < |QuizFormatsTable(recentStart)| ==> ValidateFormat(QuizFormatsTable(recentStart)[k])
  {
    var table := QuizFormatsTable(recentStart);
    forall k | 0 <= k < |table|
      ensures ValidateFormat(table[k])
    {
      assert forall i :: 0 <= i < |table[k].filters| ==> FilterWellFormed(table[k].filters[i]);
    }
  }

  /** The first entry with the given id that is active (`Array.prototype.find`). */
  function FindActive(formats: seq<QuizFormat>, id: string): (r: Option<nat>)
    ensures r.Some? ==> r.value < |formats| && formats[r.value].id == id && formats[r.value].isActive
    ensures r.Some? ==> forall j :: 0 <= j < r.value ==> !(formats[j].id == id && formats[j].isActive)
    ensures r.None? <==> forall j :: 0 <= j < |formats| ==> !(formats[j].id == id && formats[j].isActive)
  {
    if |formats| == 0 then None
    else if formats[0].id == id && formats[0].isActive then Some(0)
    else
      match FindActive(formats[1..], id)
      case None => None
      case Some(k) => Some(k + 1)
  }

  datatype FormatError = FormatNotFound(formatId: string)

  /**
   * `getFormatById`: the first active format with this id; an unknown id and
   * an inactive format give the same error.
   */
  function GetFormatById(recentStart: Date, formatId: string): (r: Result<QuizFormat, FormatError>)
    ensures r.Success? ==> r.value.id == formatId && r.value.isActive && r.value in QuizFormatsTable(recentStart)
    ensures r.Failure? <==> forall f :: f in QuizFormatsTable(recentStart) ==> !(f.id == formatId && f.isActive)
    ensures r.Failure? ==> r.error == FormatNotFound(formatId)
  {
    var table := QuizFormatsTable(recentStart);
    match FindActive(table, formatId)
    case None => Failure(FormatNotFound(formatId))
    case Some(k) => Success(table[k])
  }

  /** The multicolour format exists but is inactive, so it cannot be looked up. */
  lemma MulticolorNotSelectable(recentStart: Date)
    ensures GetFormatById(recentStart, "multicolor") == Failure(FormatNotFound("multicolor"))
    ensures exists f :: f in QuizFormatsTable(recentStart) && f.id == "multicolor"
  {
    assert QuizFormatsTable(recentStart)[5].id == "multicolor";
  }

  /** The formats with `isActive` set, in table order (`Array.prototype.filter`). */
  function ActiveOnly(formats: seq<QuizFormat>): (r: seq<QuizFormat>)
    ensures |r| <= |formats|
    ensures forall i :: 0 <= i < |r| ==> r[i].isActive
  {
    if |formats| == 0 then []
    else if formats[0].isActive then [formats[0]] + ActiveOnly(formats[1..])
    else ActiveOnly(formats[1..])
  }

  /** A format is kept exactly when it is in the list and active. */
  lemma {:induction false} ActiveOnlyMembers(formats: seq<QuizFormat>)
    ensures forall f :: f in ActiveOnly(formats) <==> f in formats && f.isActive
  {
    if |formats| > 0 {
      ActiveOnlyMembers(formats[1..]);
      assert formats == [formats[0]] + formats[1..];
    }
  }

  /** `getAllActiveFormats`. */
  function GetAllActiveFormats(recentStart: Date): (r: seq<QuizFormat>)
    ensures forall f :: f in r <==> f in QuizFormatsTable(recentStart) && f.isActive
  {
    ActiveOnlyMembers(QuizFormatsTable(recentStart));
    ActiveOnly(QuizFormatsTable(recentStart))
  }

  /** When the active formats all come first, filtering keeps exactly that prefix. */
  lemma {:induction false} ActiveOnlyPrefix(formats: seq<QuizFormat>, k: nat)
    requires k <= |formats|
    requires forall i :: 0 <= i < k ==> formats[i].isActive
    requires forall i :: k <= i < |formats| ==> !formats[i].isActive
    ensures ActiveOnly(formats) == formats[..k]
  {
    if |formats| > 0 {
      var tail := formats[1..];
      if k == 0 {
        assert forall i :: 0 <= i < |tail| ==> !tail[i].isActive by {
          assert forall i :: 0 <= i < |tail| ==> tail[i] == formats[i + 1];
        }
        ActiveOnlyPrefix(tail, 0);
      } else {
        assert forall i :: 0 <= i < k - 1 ==> tail[i].isActive by {
          assert forall i :: 0 <= i < |tail| ==> tail[i] == formats[i + 1];
        }
        assert forall i :: k - 1 <= i < |tail| ==> !tail[i].isActive by {
          assert forall i :: 0 <= i < |tail| ==> tail[i] == formats[i + 1];
        }
        ActiveOnlyPrefix(tail, k - 1);
        assert formats[..k] == [formats[0]] + tail[..k - 1];
      }
    }
  }

  /** Every table entry but the multicolour one is offered, in table order. */
  lemma ActiveFormatsInOrder(recentStart: Date)
    ensures GetAllActiveFormats(recentStart) == QuizFormatsTable(recentStart)[..5]
  {
    ActiveOnlyPrefix(QuizFormatsTable(recentStart), 5);
  }

  /** The fields of a format an API response carries. */
  datatype QuizFormatSummary = QuizFormatSummary(id: string, name: string, description: string, isActive: bool)

  /** `formatToSummary`: the four fields, copied unchanged. */
  function FormatToSummary(format: QuizFormat): (s: QuizFormatSummary)
    ensures s.id == format.id && s.name == format.name
    ensures s.description == format.description && s.isActive == format.isActive
  {
    QuizFormatSummary(format.id, format.name, format.description, format.isActive)
  }

  /** A looked-up format's summary names the requested id and is active. */
  lemma SummaryOfLookup(recentStart: Date, formatId: string)
    requires GetFormatById(recentStart, formatId).Success?
    ensures FormatToSummary(GetFormatById(recentStart, formatId).value).id == formatId
    ensures FormatToSummary(GetFormatById(recentStart, formatId).value).isActive
  {
  }
}

=== FILE: quiz_router.dfy ===
/**
 * The quiz router: card selection for a new quiz (random window plus
 * backfill), answer grading, quiz scoring and the fuzzy-search threshold.
 *
 * The database is a value: the card count and the ordered id rows are
 * parameters; the card names and the quizzes are maps in a `Store`, and each
 * quiz holds its answers as a sequence, in insertion order.
 */
module QuizRouter {
  import opened Wrappers
  import opened Sequences
  import SeededRandom

  type CardId = string
  type QuizId = string
  type UserId = string

  /** The distinct failures the procedures report: rejected input, an empty pool, missing rows. */
  datatype QuizError =
    | InvalidInput(field: string)
    | NoCardsAvailable
    | CardNotFound
    | QuizNotFound

  const DefaultCardCount: int := 20
  const MinCardCount: int := 1
  const MaxCardCount: int := 50

  /** The `cardCount` input: default 20, rejected outside `[1, 50]`. */
  function ResolveCardCount(cardCount: Option<int>): (r: Result<int, QuizError>)
    ensures r.Success? ==> MinCardCount <= r.value <= MaxCardCount
    ensures r.Failure? <==> cardCount.Some? && !(MinCardCount <= cardCount.value <= MaxCardCount)
    ensures cardCount.None? ==> r == Success(DefaultCardCount)
    ensures r.Success? && cardCount.Some? ==> r.value == cardCount.value
  {
    match cardCount
    case None => Success(DefaultCardCount)
    case Some(n) =>
      if MinCardCount <= n <= MaxCardCount then Success(n) else Failure(InvalidInput("cardCount"))
  }

  /** `Math.min(cardCount, totalCards)`. */
  function ActualCardCount(cardCount: int, totalCards: nat): (actual: nat)
    requires cardCount >= 1
    requires totalCards >= 1
    ensures 1 <= actual <= totalCards && actual <= cardCount
    ensures actual == cardCount || actual == totalCards
  {
    if cardCount <= totalCards then cardCount else totalCards
  }

  /** The window start: `Math.floor(Math.random() * Math.max(0, totalCards - actualCardCount))`. */
  function WindowOffset(totalCards: nat, actual: nat, random: SeededRandom.Draw): (offset: nat)
    requires random.Valid()
    ensures offset == SeededRandom.GetRandomOffset(None, totalCards, actual, random)
    ensures actual >= totalCards ==> offset == 0
    ensures actual < totalCards ==> offset < totalCards - actual
  {
    SeededRandom.ScaleDraw(random.num, random.den, SeededRandom.Span(totalCards, actual))
  }

  /** The first fetch: `skip: offset, take: actual` over the ordered rows. */
  function FirstFetch(pool: seq<CardId>, offset: nat, actual: nat): (window: seq<CardId>)
    ensures offset <= |pool| ==> window == pool[offset..if offset + actual <= |pool| then offset + actual else |pool|]
    ensures offset > |pool| ==> window == []
    ensures |window| <= actual
  {
    Take(Skip(pool, offset), actual)
  }

  /**
   * The backfill: when the window is short, up to the missing number of ids
   * from the front of the rows, skipping ids already chosen (`notIn`).
   */
  function Backfill(pool: seq<CardId>, window: seq<CardId>, actual: nat): (chosen: seq<CardId>)
    ensures window <= chosen
    ensures |window| >= actual ==> chosen == window
    ensures |chosen| <= (if |window| >= actual then |window| else actual)
    ensures forall k :: |window| <= k < |chosen| ==> chosen[k] in pool && chosen[k] !in window
    ensures |window| < actual ==>
      var rest := Without(pool, Elements(window));
      && chosen[|window|..] <= rest
      && |chosen| == |window| + (if actual - |window| <= |rest| then actual - |window| else |rest|)
  {
    if |window| < actual then
      var extra := Take(Without(pool, Elements(window)), actual - |window|);
      assert forall k :: 0 <= k < |extra| ==> extra[k] in Without(pool, Elements(window));
      window + extra
    else window
  }

  /**
   * The card selection of `createQuiz`. `totalCards` is what the count query
   * returned and `pool` the ordered ids the fetches see; `random` is the value
   * `Math.random()` returned.
   */
  function SelectCards(totalCards: nat, pool: seq<CardId>, cardCount: int, random: SeededRandom.Draw)
    : (r: Result<seq<CardId>, QuizError>)
    requires MinCardCount <= cardCount <= MaxCardCount
    requires random.Valid()
    ensures r.Failure? <==> totalCards == 0
    ensures r.Failure? ==> r.error == NoCardsAvailable
    ensures r.Success? ==>
      var actual := ActualCardCount(cardCount, totalCards);
      var window := FirstFetch(pool, WindowOffset(totalCards, actual, random), actual);
      && window <= r.value
      && |r.value| <= actual
      && (|window| < actual ==> r.value[|window|..] <= Without(pool, Elements(window)))
      && (forall k :: 0 <= k < |r.value| ==> r.value[k] in pool)
  {
    if totalCards == 0 then Failure(NoCardsAvailable)
    else
      var actual := ActualCardCount(cardCount, totalCards);
      var offset := WindowOffset(totalCards, actual, random);
      var window := FirstFetch(pool, offset, actual);
      assert forall k :: 0 <= k < |window| ==> window[k] in pool;
      Success(Backfill(pool, window, actual))
  }

  /** The first fetch over duplicate-free rows is duplicate-free, and as long as the rows allow. */
  lemma FirstFetchDistinct(pool: seq<CardId>, offset: nat, actual: nat)
    requires Distinct(pool)
    ensures Distinct(FirstFetch(pool, offset, actual))
    ensures |FirstFetch(pool, offset, actual)| ==
      if offset + actual <= |pool| then actual else if offset <= |pool| then |pool| - offset else 0
  {
    var window := FirstFetch(pool, offset, actual);
    if offset <= |pool| {
      SliceDistinct(pool, offset, offset + |window|);
      assert window == pool[offset..offset + |window|];
    }
  }

  /**
   * Backfilling a duplicate-free window drawn from duplicate-free rows gives
   * a duplicate-free selection of `min(actual, |pool|)` ids.
   */
  lemma BackfillDistinct(pool: seq<CardId>, window: seq<CardId>, actual: nat)
    requires Distinct(pool)
    requires Distinct(window)
    requires forall k :: 0 <= k < |window| ==> window[k] in pool
    requires |window| <= actual
    ensures Distinct(Backfill(pool, window, actual))
    ensures |Backfill(pool, window, actual)| == if actual <= |pool| then actual else |pool|
  {
    var rest := Without(pool, Elements(window));
    WithoutDistinct(pool, Elements(window));
    WithoutLength(pool, Elements(window));
    DistinctCard(window);
    DistinctCard(pool);
    assert Elements(window) * Elements(pool) == Elements(window);
    assert Elements(window) <= Elements(pool);
    assert |Elements(window)| <= |Elements(pool)| by {
      SubsetCard(Elements(window), Elements(pool));
    }
    assert |rest| == |pool| - |window|;
    if |window| < actual {
      var extra := Take(rest, actual - |window|);
      var chosen := window + extra;
      assert chosen == Backfill(pool, window, actual);
      forall i, j | 0 <= i < j < |chosen|
        ensures chosen[i] != chosen[j]
      {
        if j < |window| {
          assert chosen[i] == window[i] && chosen[j] == window[j];
        } else if i >= |window| {
          assert chosen[i] == rest[i - |window|] && chosen[j] == rest[j - |window|];
        } else {
          assert chosen[j] in rest;
          assert chosen[i] in Elements(window);
        }
      }
    }
  }

  /**
   * Over duplicate-free rows the selection holds `min(actual, |pool|)` ids,
   * none twice, all from the rows; when the count is current that is exactly
   * `actual` ids.
   */
  lemma SelectionIsDistinctAndFull(totalCards: nat, pool: seq<CardId>, cardCount: int, random: SeededRandom.Draw)
    requires MinCardCount <= cardCount <= MaxCardCount
    requires random.Valid()
    requires totalCards > 0
    requires Distinct(pool)
    ensures var chosen := SelectCards(totalCards, pool, cardCount, random).value;
      var actual := ActualCardCount(cardCount, totalCards);
      && Distinct(chosen)
      && |chosen| == (if actual <= |pool| then actual else |pool|)
      && (|pool| == totalCards ==> |chosen| == actual)
  {
    var actual := ActualCardCount(cardCount, totalCards);
    var offset := WindowOffset(totalCards, actual, random);
    var window := FirstFetch(pool, offset, actual);
    FirstFetchDistinct(pool, offset, actual);
    assert forall k :: 0 <= k < |window| ==> window[k] in pool;
    BackfillDistinct(pool, window, actual);
  }

  /** When the count matches the rows, the window is full and no backfill runs. */
  lemma NoBackfillWhenCountCurrent(totalCards: nat, pool: seq<CardId>, cardCount: int, random: SeededRandom.Draw)
    requires MinCardCount <= cardCount <= MaxCardCount
    requires random.Valid()
    requires totalCards > 0
    requires |pool| == totalCards
    ensures var actual := ActualCardCount(cardCount, totalCards);
      var offset := WindowOffset(totalCards, actual, random);
      && offset + actual <= totalCards
      && SelectCards(totalCards, pool, cardCount, random).value == pool[offset..offset + actual]
  {
  }

  /** A quiz row with its answer rows. */
  datatype Answer = Answer(quizId: QuizId, cardId: CardId, userAnswer: string, isCorrect: bool, timeSpent: Option<int>)
  datatype Quiz = Quiz(userId: UserId, cards: seq<CardId>, answers: seq<Answer>, completedAt: Option<int>)

  /** The tables the procedures read and write: card names by id, quizzes by id. */
  datatype Store = Store(cardNames: map<CardId, string>, quizzes: map<QuizId, Quiz>)

  /**
   * `createQuiz`: validate the count, select the cards, and add a quiz for
   * the user under the new id with no answers and no completion time.
   */
  function CreateQuiz(store: Store, userId: UserId, quizId: QuizId, cardCount: Option<int>,
                      totalCards: nat, pool: seq<CardId>, random: SeededRandom.Draw)
    : (r: Result<(Store, Quiz), QuizError>)
    requires random.Valid()
    requires quizId !in store.quizzes
    ensures r.Failure? <==> ResolveCardCount(cardCount).Failure? || totalCards == 0
    ensures r.Success? ==>
      var (store', quiz) := r.value;
      && quiz.userId == userId && quiz.answers == [] && quiz.completedAt.None?
      && quiz.cards == SelectCards(totalCards, pool, ResolveCardCount(cardCount).value, random).value
      && store'.quizzes == store.quizzes[quizId := quiz]
      && store'.cardNames == store.cardNames
  {
    match ResolveCardCount(cardCount)
    case Failure(e) => Failure(e)
    case Success(n) =>
      match SelectCards(totalCards, pool, n, random)
      case Failure(e) => Failure(e)
      case Success(cards) =>
        var quiz := Quiz(userId, cards, [], None);
        Success((store.(quizzes := store.quizzes[quizId := quiz]), quiz))
  }

  /** One character of `toLowerCase`, restricted to the letters A to Z. */
  function LowerChar(c: char): char {
    if 'A' <= c <= 'Z' then (c as int + 32) as char else c
  }

  /**
   * Two characters that lower alike: equal, or the same letter of A to Z in
   * either case.
   */
  predicate SameIgnoringCase(x: char, y: char) {
    || x == y
    || ('A' <= x <= 'Z' && y as int == x as int + 32)
    || ('A' <= y <= 'Z' && x as int == y as int + 32)
  }

  /** `toLowerCase`, restricted to the letters A to Z. */
  function Lower(s: string): (r: string)
    ensures |r| == |s|
    ensures forall i :: 0 <= i < |s| ==> !('A' <= r[i] <= 'Z')
    ensures forall i :: 0 <= i < |s| ==> (r[i] == s[i] || r[i] as int == s[i] as int + 32)
    ensures forall i :: 0 <= i < |s| && 'A' <= s[i] <= 'Z' ==> r[i] as int == s[i] as int + 32
    ensures forall i :: 0 <= i < |s| && !('A' <= s[i] <= 'Z') ==> r[i] == s[i]
  {
    seq(|s|, i requires 0 <= i < |s| => LowerChar(s[i]))
  }

  /** Lowering twice lowers once. */
  lemma LowerIdempotent(s: string)
    ensures Lower(Lower(s)) == Lower(s)
  {
  }

  /** An answer is correct when it equals the card name after lowering both sides; nothing is trimmed. */
  predicate IsCorrect(cardName: string, userAnswer: string): (ok: bool)
    ensures ok <==>
      && |cardName| == |userAnswer|
      && forall i :: 0 <= i < |cardName| ==> SameIgnoringCase(cardName[i], userAnswer[i])
  {
    var a, b := Lower(cardName), Lower(userAnswer);
    assert a == b <==> |a| == |b| && forall i :: 0 <= i < |a| ==> a[i] == b[i];
    a == b
  }

  /** Grading ignores the case of either side and is symmetric. */
  lemma GradingIgnoresCase(cardName: string, userAnswer: string)
    ensures IsCorrect(cardName, userAnswer) <==> IsCorrect(cardName, Lower(userAnswer))
    ensures IsCorrect(cardName, userAnswer) <==> IsCorrect(Lower(cardName), userAnswer)
    ensures IsCorrect(cardName, userAnswer) <==> IsCorrect(userAnswer, cardName)
  {
    LowerIdempotent(cardName);
    LowerIdempotent(userAnswer);
  }

  /** A correct answer has the card name's length: nothing is trimmed. */
  lemma CorrectAnswerSameLength(cardName: string, userAnswer: string)
    requires IsCorrect(cardName, userAnswer)
    ensures |userAnswer| == |cardName|
  {
    assert |Lower(cardName)| == |Lower(userAnswer)|;
  }

  /** The card name used in the grading examples, lowered. */
  lemma LowerCardName()
    ensures Lower("Lightning Bolt") == "lightning bolt"
  {
  }

  /** An all-capitals answer, lowered. */
  lemma LowerShouted()
    ensures Lower("LIGHTNING BOLT") == "lightning bolt"
  {
  }

  /** "lightning bolt" grades correct against "Lightning Bolt"; a leading space does not. */
  lemma GradingExamples()
    ensures IsCorrect("Lightning Bolt", "lightning bolt")
    ensures IsCorrect("Lightning Bolt", "LIGHTNING BOLT")
    ensures !IsCorrect("Lightning Bolt", " lightning bolt")
  {
    LowerCardName();
    LowerShouted();
    LowerIdempotent("Lightning Bolt");
    assert |Lower(" lightning bolt")| != |Lower("Lightning Bolt")|;
  }

  /** What `submitAnswer` returns. */
  datatype Submission = Submission(isCorrect: bool, correctAnswer: string, answer: Answer)

  /**
   * `submitAnswer`: fails when the card is missing; otherwise grades the
   * answer and appends an answer row to the quiz, whose absence makes the
   * insert fail. Earlier answers for the same card are kept.
   */
  function SubmitAnswer(store: Store, quizId: QuizId, cardId: CardId, userAnswer: string, timeSpent: Option<int>)
    : (r: Result<(Store, Submission), QuizError>)
    ensures cardId !in store.cardNames <==> r == Failure(CardNotFound)
    ensures cardId in store.cardNames && quizId !in store.quizzes <==> r == Failure(QuizNotFound)
    ensures r.Success? ==>
      var (store', sub) := r.value;
      var quiz := store.quizzes[quizId];
      && (sub.isCorrect <==> IsCorrect(store.cardNames[cardId], userAnswer))
      && sub.correctAnswer == store.cardNames[cardId]
      && sub.answer == Answer(quizId, cardId, userAnswer, sub.isCorrect, timeSpent)
      && store'.cardNames == store.cardNames
      && store'.quizzes.Keys == store.quizzes.Keys
      && store'.quizzes[quizId] == quiz.(answers := quiz.answers + [sub.answer])
      && (forall q :: q in store.quizzes && q != quizId ==> store'.quizzes[q] == store.quizzes[q])
  {
    if cardId !in store.cardNames then Failure(CardNotFound)
    else
      var name := store.cardNames[cardId];
      var isCorrect := Lower(name) == Lower(userAnswer);
      if quizId !in store.quizzes then Failure(QuizNotFound)
      else
        var answer := Answer(quizId, cardId, userAnswer, isCorrect, timeSpent);
        var quiz := store.quizzes[quizId];
        var store' := store.(quizzes := store.quizzes[quizId := quiz.(answers := quiz.answers + [answer])]);
        Success((store', Submission(isCorrect, name, answer)))
  }

  /** The number of answers marked correct, counted as `filter(isCorrect).length` does. */
  function CountCorrect(answers: seq<Answer>): (n: nat)
    ensures n <= |answers|
    ensures n == |answers| <==> forall i :: 0 <= i < |answers| ==> answers[i].isCorrect
    ensures n == 0 <==> forall i :: 0 <= i < |answers| ==> !answers[i].isCorrect
  {
    if |answers| == 0 then 0
    else (if answers[0].isCorrect then 1 else 0) + CountCorrect(answers[1..])
  }

  /** Appending an answer adds one to the count exactly when it is correct. */
  lemma {:induction false} CountCorrectAppend(answers: seq<Answer>, a: Answer)
    ensures CountCorrect(answers + [a]) == CountCorrect(answers) + (if a.isCorrect then 1 else 0)
  {
    if |answers| > 0 {
      assert (answers + [a])[1..] == answers[1..] + [a];
      CountCorrectAppend(answers[1..], a);
    } else {
      assert answers + [a] == [a];
    }
  }

  /** What `completeQuiz` returns. */
  datatype Completion = Completion(quiz: Quiz, score: nat, totalQuestions: nat)

  /**
   * `completeQuiz`: stamps the completion time and scores the quiz as the
   * number of correct answers against the number of cards.
   */
  function CompleteQuiz(store: Store, quizId: QuizId, now: int): (r: Result<(Store, Completion), QuizError>)
    ensures r.Failure? <==> quizId !in store.quizzes
    ensures r.Failure? ==> r.error == QuizNotFound
    ensures r.Success? ==>
      var (store', c) := r.value;
      var quiz := store.quizzes[quizId];
      && c.quiz == quiz.(completedAt := Some(now))
      && store'.quizzes == store.quizzes[quizId := c.quiz]
      && store'.cardNames == store.cardNames
      && c.score == CountCorrect(quiz.answers)
      && c.score <= |quiz.answers|
      && c.totalQuestions == |quiz.cards|
      && (c.score == |quiz.answers| <==> forall i :: 0 <= i < |quiz.answers| ==> quiz.answers[i].isCorrect)
  {
    if quizId !in store.quizzes then Failure(QuizNotFound)
    else
      var quiz := store.quizzes[quizId];
      var done := quiz.(completedAt := Some(now));
      Success((store.(quizzes := store.quizzes[quizId := done]), Completion(done, CountCorrect(done.answers), |done.cards|)))
  }

  /**
   * Answering the only card of a quiz correctly twice scores 2 out of 1:
   * nothing bounds the score by the number of questions.
   */
  lemma ScoreCanExceedQuestions()
    ensures var store := Store(map["c" := "Lightning Bolt"], map["q" := Quiz("u", ["c"], [], None)]);
      var first := SubmitAnswer(store, "q", "c", "lightning bolt", None);
      first.Success? &&
      var second := SubmitAnswer(first.value.0, "q", "c", "Lightning Bolt", None);
      second.Success? &&
      var done := CompleteQuiz(second.value.0, "q", 0);
      done.Success? && done.value.1.score == 2 && done.value.1.totalQuestions == 1
  {
    GradingExamples();
    assert IsCorrect("Lightning Bolt", "Lightning Bolt");
    var store := Store(map["c" := "Lightning Bolt"], map["q" := Quiz("u", ["c"], [], None)]);
    var first := SubmitAnswer(store, "q", "c", "lightning bolt", None);
    var second := SubmitAnswer(first.value.0, "q", "c", "Lightning Bolt", None);
    var answers := second.value.0.quizzes["q"].answers;
    CountCorrectAppend([], first.value.1.answer);
    CountCorrectAppend([first.value.1.answer], second.value.1.answer);
    assert answers == [first.value.1.answer] + [second.value.1.answer];
  }

  const MinQueryLength: int := 2
  const MaxQueryLength: int := 100
  const DefaultSearchLimit: int := 20
  const MaxSearchLimit: int := 50
  const DefaultThreshold: real := 0.3

  /**
   * The similarity threshold `searchCards` applies, after its input checks:
   * 0.1 for a two-character query, 0.2 for three characters, otherwise the
   * caller's threshold (default 0.3).
   */
  function SearchThreshold(query: string, limit: Option<int>, threshold: Option<real>): (r: Result<real, QuizError>)
    ensures r.Failure? <==>
      || !(MinQueryLength <= |query| <= MaxQueryLength)
      || (limit.Some? && !(1 <= limit.value <= MaxSearchLimit))
      || (threshold.Some? && !(0.0 <= threshold.value <= 1.0))
    ensures r.Success? ==> 0.0 <= r.value <= 1.0
    ensures r.Success? && |query| == 2 ==> r.value == 0.1
    ensures r.Success? && |query| == 3 ==> r.value == 0.2
    ensures r.Success? && |query| <= 3 ==> r.value < DefaultThreshold
    ensures r.Success? && |query| > 3 ==> r.value == threshold.GetOr(DefaultThreshold)
  {
    if !(MinQueryLength <= |query| <= MaxQueryLength) then Failure(InvalidInput("query"))
    else if limit.Some? && !(1 <= limit.value <= MaxSearchLimit) then Failure(InvalidInput("limit"))
    else if threshold.Some? && !(0.0 <= threshold.value <= 1.0) then Failure(InvalidInput("threshold"))
    else if |query| <= 2 then Success(0.1)
    else if |query| <= 3 then Success(0.2)
    else Success(threshold.GetOr(DefaultThreshold))
  }

  /** With the default threshold, a longer query never gets a lower threshold. */
  lemma ThresholdGrowsWithQueryLength(q1: string, q2: string, limit: Option<int>)
    requires SearchThreshold(q1, limit, None).Success?
    requires SearchThreshold(q2, limit, None).Success?
    requires |q1| <= |q2|
    ensures SearchThreshold(q1, limit, None).value <= SearchThreshold(q2, limit, None).value
    ensures |q1| < |q2| <= 4 ==> SearchThreshold(q1, limit, None).value < SearchThreshold(q2, limit, None).value
  {
  }

  /** A one-character query is rejected by the input checks rather than answered. */
  lemma OneCharacterQueryRejected(c: char, limit: Option<int>, threshold: Option<real>)
    ensures SearchThreshold([c], limit, threshold) == Failure(InvalidInput("query"))
  {
  }
}

=== FILE: seeded_random.dfy ===
/**
 * The seeded sampler: a linear congruential generator over an integer state
 * and the window offset it yields for quiz construction.
 *
 * JavaScript numbers are modelled as exact integers and reals; the `%` of the
 * recurrence keeps the dividend's sign, as JavaScript's does.
 */
module SeededRandom {
  import opened Wrappers

  const Multiplier: int := 9301
  const Increment: int := 49297
  const Modulus: int := 233280

  /** JavaScript's `%` for a positive divisor: the remainder keeps the dividend's sign. */
  function JsRem(a: int, m: int): (r: int)
    requires m > 0
    ensures (a - r) % m == 0
    ensures a >= 0 ==> 0 <= r < m
    ensures a < 0 ==> -m < r <= 0
  {
    if a >= 0 then
      MultipleMod(a / m, m);
      assert a - a % m == (a / m) * m;
      a % m
    else
      var b := -a;
      MultipleMod(-(b / m), m);
      assert b == (b / m) * m + b % m;
      assert a - -(b % m) == -(b / m) * m;
      -(b % m)
  }

  /** A multiple of `m` leaves no remainder. */
  lemma MultipleMod(q: int, m: int)
    requires m > 0
    ensures (q * m) % m == 0
  {
    var k, r := (q * m) / m, (q * m) % m;
    assert r == (q - k) * m;
    if q - k >= 1 {
      MulMonotone(1, q - k, m);
    } else if q - k <= -1 {
      MulMonotone(q - k, -1, m);
    }
  }

  /**
   * One step of the recurrence `value = (value * 9301 + 49297) % 233280`: the
   * new state is congruent to `state * 9301 + 49297` and carries its sign.
   */
  function Step(state: int): (next: int)
    ensures (state * Multiplier + Increment - next) % Modulus == 0
    ensures -Modulus < next < Modulus
    ensures state * Multiplier + Increment >= 0 ==> 0 <= next
    ensures state * Multiplier + Increment < 0 ==> next <= 0
    ensures state >= 0 ==> 0 <= next
  {
    JsRem(state * Multiplier + Increment, Modulus)
  }

  /** The state after `n` steps from `seed`. */
  function StateAfter(seed: int, n: nat): int {
    if n == 0 then seed else Step(StateAfter(seed, n - 1))
  }

  /** The value a state is reported as: `value / 233280`. */
  function Output(state: int): real {
    state as real / Modulus as real
  }

  /** The closure `createSeededRandom(seed)` returns, as the state it captures. */
  datatype Generator = Generator(value: int)

  function CreateSeededRandom(seed: int): (g: Generator)
    ensures Next(g).0.value == StateAfter(seed, 1)
  {
    Generator(seed)
  }

  /**
   * One call of the closure: the advanced generator and the value it returns,
   * which is the new state over 233280.
   */
  function Next(g: Generator): (r: (Generator, real))
    ensures r.1 * Modulus as real == r.0.value as real
    ensures -1.0 < r.1 < 1.0
    ensures g.value >= 0 ==> 0 <= r.0.value && 0.0 <= r.1
  {
    var value := Step(g.value);
    (Generator(value), Output(value))
  }

  /** The first `n` values a generator returns, calling it `n` times in a row. */
  function Outputs(g: Generator, n: nat): (r: seq<real>)
    ensures |r| == n
    ensures forall i :: 0 <= i < n ==> -1.0 < r[i] < 1.0
    ensures g.value >= 0 ==> forall i :: 0 <= i < n ==> 0.0 <= r[i]
    decreases n
  {
    if n == 0 then [] else [Next(g).1] + Outputs(Next(g).0, n - 1)
  }

  /** Starting one step later is the same as taking one more step. */
  lemma {:induction false} StateAfterShift(seed: int, n: nat)
    ensures StateAfter(Step(seed), n) == StateAfter(seed, n + 1)
  {
    if n > 0 {
      StateAfterShift(seed, n - 1);
    }
  }

  /** The `i`-th value returned (counting from 0) is `lcg^(i+1)(seed) / 233280`. */
  lemma {:induction false} OutputAt(seed: int, n: nat, i: nat)
    requires i < n
    ensures Outputs(CreateSeededRandom(seed), n)[i] == Output(StateAfter(seed, i + 1))
    decreases i
  {
    var full := Outputs(Generator(seed), n);
    var rest := Outputs(Generator(Step(seed)), n - 1);
    assert full == [Output(Step(seed))] + rest;
    if i == 0 {
      assert StateAfter(seed, 1) == Step(seed);
    } else {
      OutputAt(Step(seed), n - 1, i - 1);
      assert full[i] == rest[i - 1];
      StateAfterShift(seed, i);
    }
  }

  /** Fewer calls see a prefix of what more calls see. */
  lemma {:induction false} OutputsPrefix(g: Generator, n: nat, m: nat)
    requires n <= m
    ensures Outputs(g, n) <= Outputs(g, m)
    decreases n
  {
    if n > 0 {
      OutputsPrefix(Next(g).0, n - 1, m - 1);
    }
  }

  /** From a non-negative seed every state after the first step lies in `[0, 233280)`. */
  lemma {:induction false} StatesInRange(seed: int, n: nat)
    requires seed >= 0
    requires n >= 1
    ensures 0 <= StateAfter(seed, n) < Modulus
  {
    if n > 1 {
      StatesInRange(seed, n - 1);
    }
  }

  /** A value of `Math.random()`: the fraction `num / den`, in `[0, 1)` when valid. */
  datatype Draw = Draw(num: int, den: int) {
    predicate Valid() {
      0 <= num < den
    }
  }

  /** The width of the offset range: `Math.max(0, totalCards - actualCardCount)`. */
  function Span(totalCards: int, actualCardCount: int): (d: nat)
    ensures d == 0 <==> actualCardCount >= totalCards
    ensures d > 0 ==> d == totalCards - actualCardCount
  {
    if totalCards > actualCardCount then totalCards - actualCardCount else 0
  }

  /** For a positive divisor, the floor of a real quotient is Dafny's integer division. */
  lemma FloorOfQuotient(a: int, m: int)
    requires m > 0
    ensures (a as real / m as real).Floor == a / m
  {
    var q := a / m;
    var r := a % m;
    assert a == q * m + r;
    assert a as real == q as real * m as real + r as real;
    assert a as real / m as real == q as real + r as real / m as real;
    assert 0.0 <= r as real / m as real < 1.0;
  }

  /** Multiplying by a non-negative factor keeps the order. */
  lemma MulMonotone(a: int, b: int, d: nat)
    requires a <= b
    ensures a * d <= b * d
  {
    var k := b - a;
    assert b * d == a * d + k * d;
    assert k * d >= 0;
  }

  /** A quotient below the bound comes from a dividend below the scaled bound. */
  lemma QuotientBelow(x: int, den: int, d: int)
    requires den > 0
    requires x < den * d
    ensures x / den < d
  {
    var q := x / den;
    assert q * den <= x;
    if q >= d {
      MulMonotone(d, q, den);
      assert false;
    }
  }

  /** A quotient at or above the bound comes from a dividend at or above the scaled bound. */
  lemma QuotientAtLeast(x: int, den: int, d: int)
    requires den > 0
    requires den * d <= x
    ensures d <= x / den
  {
    var q := x / den;
    assert x < q * den + den;
    if q < d {
      MulMonotone(q + 1, d, den);
      assert false;
    }
  }

  /** For `0 <= num < den`, `floor(num * d / den)` lies in `[0, d)`. */
  lemma ScaledBoundsNonNegative(num: int, den: int, d: nat)
    requires 0 <= num < den
    requires d > 0
    ensures 0 <= (num * d) / den < d
  {
    MulMonotone(num, den - 1, d);
    MulMonotone(0, num, d);
    assert (den - 1) * d == den * d - d;
    QuotientBelow(num * d, den, d);
    QuotientAtLeast(num * d, den, 0);
  }

  /** For `-den < num < 0`, `floor(num * d / den)` lies in `[-d, 0)`. */
  lemma ScaledBoundsNegative(num: int, den: int, d: nat)
    requires -den < num < 0
    requires d > 0
    ensures -(d as int) <= (num * d) / den < 0
  {
    MulMonotone(-den + 1, num, d);
    MulMonotone(num, -1, d);
    assert (-den + 1) * d == -den * d + d;
    QuotientBelow(num * d, den, 0);
    QuotientAtLeast(num * d, den, -(d as int));
  }

  /** The offset bounds: `floor(num * d / den)` for `-den < num < den` lies in `[-d, d)`, and in `[0, d)` when `num >= 0`. */
  lemma ScaledBounds(num: int, den: int, d: nat)
    requires den > 0
    ensures -den < num < den && d > 0 ==> -(d as int) <= (num * d) / den < d
    ensures 0 <= num < den && d > 0 ==> 0 <= (num * d) / den
  {
    if d > 0 && 0 <= num < den {
      ScaledBoundsNonNegative(num, den, d);
    } else if d > 0 && -den < num < 0 {
      ScaledBoundsNegative(num, den, d);
    }
  }

  /** Scaling a quotient is the quotient of the scaled dividend. */
  lemma ScaleQuotient(num: int, den: int, d: nat)
    requires den > 0
    ensures (num as real / den as real) * d as real == (num * d) as real / den as real
  {
  }

  /** `Math.floor(x * d)` for a draw `x = num / den`, computed on integers. */
  function ScaleDraw(num: int, den: int, d: nat): (offset: int)
    requires den > 0
    ensures offset == ((num as real / den as real) * d as real).Floor
    ensures 0 <= num < den && d > 0 ==> 0 <= offset < d
    ensures -den < num < den && d > 0 ==> -(d as int) <= offset < d
  {
    ScaleQuotient(num, den, d);
    FloorOfQuotient(num * d, den);
    ScaledBounds(num, den, d);
    (num * d) / den
  }

  /**
   * `getRandomOffset(seed, totalCards, actualCardCount)`. With no seed the
   * offset comes from `random`, the value `Math.random()` returned; with a seed
   * it comes from exactly one value of `createSeededRandom(seed)`.
   */
  function GetRandomOffset(seed: Option<int>, totalCards: int, actualCardCount: int, random: Draw): (offset: int)
    requires seed.None? ==> random.Valid()
    ensures seed.Some? ==> offset == SeededOffset(seed.value, Span(totalCards, actualCardCount))
    ensures seed.None? ==>
      offset == ((random.num as real / random.den as real) * Span(totalCards, actualCardCount) as real).Floor
    ensures actualCardCount >= totalCards ==> offset == 0
    ensures (seed.None? || seed.value >= 0) && totalCards > actualCardCount ==>
      0 <= offset < totalCards - actualCardCount
    ensures totalCards > actualCardCount ==> actualCardCount - totalCards <= offset < totalCards - actualCardCount
  {
    var d := Span(totalCards, actualCardCount);
    match seed
    case None => ScaleDraw(random.num, random.den, d)
    case Some(s) => SeededOffset(s, d)
  }

  /** `Math.floor(random() * d)` for the first value of a generator created from `seed`. */
  function SeededOffset(seed: int, d: nat): (offset: int)
    ensures offset == (Outputs(CreateSeededRandom(seed), 1)[0] * d as real).Floor
    ensures d == 0 ==> offset == 0
    ensures d > 0 ==> -(d as int) <= offset < d
    ensures d > 0 && seed >= 0 ==> 0 <= offset
  {
    FirstOutputScaled(seed, d);
    ScaleDraw(Step(seed), Modulus, d)
  }

  /** Scaling the first value of a new generator is scaling the seed's successor state. */
  lemma FirstOutputScaled(seed: int, d: nat)
    ensures (Outputs(CreateSeededRandom(seed), 1)[0] * d as real).Floor == ScaleDraw(Step(seed), Modulus, d)
  {
    assert Outputs(CreateSeededRandom(seed), 1) == [Output(Step(seed))] + Outputs(Generator(Step(seed)), 0);
  }

  /** Within the range, the window `[offset, offset + actualCardCount)` never passes the end. */
  lemma WindowFits(seed: Option<int>, totalCards: int, actualCardCount: int, random: Draw)
    requires seed.None? ==> random.Valid()
    requires seed.None? || seed.value >= 0
    requires actualCardCount >= 0
    ensures 0 <= GetRandomOffset(seed, totalCards, actualCardCount, random)
    ensures totalCards >= actualCardCount ==>
      GetRandomOffset(seed, totalCards, actualCardCount, random) + actualCardCount <= totalCards
  {
  }

  /** A seeded offset depends on the seed and the counts only: the `random` value is never read. */
  lemma SeededOffsetIgnoresRandom(seed: int, totalCards: int, actualCardCount: int, r1: Draw, r2: Draw)
    ensures GetRandomOffset(Some(seed), totalCards, actualCardCount, r1)
         == GetRandomOffset(Some(seed), totalCards, actualCardCount, r2)
  {
  }

  /** The seeded offset is the integer quotient `(lcg(seed) * d) div 233280`. */
  lemma SeededOffsetIsQuotient(seed: int, totalCards: int, actualCardCount: int, random: Draw)
    requires seed >= 0
    ensures GetRandomOffset(Some(seed), totalCards, actualCardCount, random)
         == (StateAfter(seed, 1) * Span(totalCards, actualCardCount)) / Modulus
  {
  }

  /** The two seeds the repository's tests compare give different offsets into 1000 cards. */
  lemma DistinctSeedsDistinctOffsets(random: Draw)
    ensures GetRandomOffset(Some(12345), 1000, 10, random) == 409
    ensures GetRandomOffset(Some(54321), 1000, 10, random) == 18
  {
    assert Step(12345) == 96382;
    assert Step(54321) == 4438;
  }

  /** A negative seed steps to a negative state, and the offset goes below zero. */
  lemma NegativeSeedNegativeOffset(random: Draw)
    ensures Step(-100) == -180963
    ensures GetRandomOffset(Some(-100), 1000, 10, random) == -768
  {
    assert -100 * Multiplier + Increment == -880803;
    assert Step(-100) == -180963;
    assert ScaleDraw(-180963, Modulus, 990) == -768;
  }
}

=== FILE: sequences.dfy ===
/**
 * Sequence vocabulary for the query layer: `skip`/`take` paging and the
 * `notIn` filter, plus the facts about them the routers rely on.
 */
module Sequences {

  /** No element occurs twice: a list of primary keys. */
  ghost predicate Distinct<T>(s: seq<T>) {
    forall i, j :: 0 <= i < j < |s| ==> s[i] != s[j]
  }

  /** The keys a list holds. */
  function Elements<T>(s: seq<T>): set<T> {
    set x | x in s
  }

  /** The rows left after skipping the first `n`; nothing when `n` passes the end. */
  function Skip<T>(s: seq<T>, n: nat): (r: seq<T>)
    ensures n <= |s| ==> r == s[n..]
    ensures n >= |s| ==> r == []
  {
    if n >= |s| then [] else s[n..]
  }

  /** At most the first `n` rows. */
  function Take<T>(s: seq<T>, n: nat): (r: seq<T>)
    ensures |r| == if n <= |s| then n else |s|
    ensures r <= s
  {
    if n >= |s| then s else s[..n]
  }

  /** The rows whose key is not in `excluded`, in their original order (`notIn`). */
  function Without<T(!new)>(s: seq<T>, excluded: set<T>): (r: seq<T>)
    ensures |r| <= |s|
    ensures forall x :: x in r <==> x in s && x !in excluded
  {
    if |s| == 0 then []
    else if s[0] in excluded then Without(s[1..], excluded)
    else [s[0]] + Without(s[1..], excluded)
  }

  /** Filtering a concatenation filters each part: the kept rows keep their order. */
  lemma {:induction false} WithoutAppend<T(!new)>(a: seq<T>, b: seq<T>, excluded: set<T>)
    ensures Without(a + b, excluded) == Without(a, excluded) + Without(b, excluded)
    decreases |a|
  {
    if |a| == 0 {
      assert a + b == b;
    } else {
      assert (a + b)[0] == a[0];
      assert (a + b)[1..] == a[1..] + b;
      WithoutAppend(a[1..], b, excluded);
    }
  }

  /** A single row is kept, as itself, exactly when its key is not excluded. */
  lemma WithoutSingle<T(!new)>(x: T, excluded: set<T>)
    ensures Without([x], excluded) == if x in excluded then [] else [x]
  {
    assert [x][1..] == [];
  }

  /** The keys of a non-empty list are its head's plus its tail's. */
  lemma ElementsCons<T>(s: seq<T>)
    requires |s| > 0
    ensures Elements(s) == {s[0]} + Elements(s[1..])
  {
    assert s == [s[0]] + s[1..];
  }

  /** The tail of a duplicate-free list is duplicate-free and lacks the head. */
  lemma DistinctTail<T>(s: seq<T>)
    requires Distinct(s)
    requires |s| > 0
    ensures Distinct(s[1..])
    ensures s[0] !in s[1..]
  {
    var tail := s[1..];
    forall k | 0 <= k < |tail|
      ensures tail[k] != s[0]
    {
      assert tail[k] == s[k + 1];
    }
    forall i, j | 0 <= i < j < |tail|
      ensures tail[i] != tail[j]
    {
      assert tail[i] == s[i + 1] && tail[j] == s[j + 1];
    }
  }

  /** Filtering a duplicate-free list keeps it duplicate-free. */
  lemma {:induction false} WithoutDistinct<T(!new)>(s: seq<T>, excluded: set<T>)
    requires Distinct(s)
    ensures Distinct(Without(s, excluded))
  {
    if |s| > 0 {
      DistinctTail(s);
      WithoutDistinct(s[1..], excluded);
      if s[0] !in excluded {
        var t := Without(s[1..], excluded);
        assert s[0] !in t;
        var r := [s[0]] + t;
        forall i, j | 0 <= i < j < |r|
          ensures r[i] != r[j]
        {
          if i == 0 {
            assert r[j] in t;
          } else {
            assert r[i] == t[i - 1] && r[j] == t[j - 1];
          }
        }
      }
    }
  }

  /**
   * Filtering a duplicate-free list removes exactly one row per excluded key
   * that the list holds.
   */
  lemma {:induction false} WithoutLength<T(!new)>(s: seq<T>, excluded: set<T>)
    requires Distinct(s)
    ensures |Without(s, excluded)| + |excluded * Elements(s)| == |s|
  {
    if |s| == 0 {
      assert excluded * Elements(s) == {};
    } else {
      var tail := s[1..];
      DistinctTail(s);
      WithoutLength(tail, excluded);
      ElementsCons(s);
      assert s[0] !in Elements(tail);
      if s[0] in excluded {
        assert excluded * Elements(s) == (excluded * Elements(tail)) + {s[0]};
      } else {
        assert excluded * Elements(s) == excluded * Elements(tail);
      }
    }
  }

  /** A contiguous window of a duplicate-free list is duplicate-free. */
  lemma SliceDistinct<T>(s: seq<T>, lo: nat, hi: nat)
    requires Distinct(s)
    requires lo <= hi <= |s|
    ensures Distinct(s[lo..hi])
  {
    var w := s[lo..hi];
    forall i, j | 0 <= i < j < |w|
      ensures w[i] != w[j]
    {
      assert w[i] == s[lo + i] && w[j] == s[lo + j];
    }
  }

  /** A duplicate-free list has as many distinct keys as rows. */
  lemma {:induction false} DistinctCard<T>(s: seq<T>)
    requires Distinct(s)
    ensures |Elements(s)| == |s|
  {
    if |s| > 0 {
      DistinctTail(s);
      DistinctCard(s[1..]);
      ElementsCons(s);
      assert s[0] !in Elements(s[1..]);
    }
  }

  /** A subset is no larger than its superset. */
  lemma SubsetCard<T>(a: set<T>, b: set<T>)
    requires a <= b
    ensures |a| <= |b|
  {
    assert b == a + (b - a);
  }

  /** A suffix splits at any point into a slice and the rest. */
  lemma SuffixSplit<T>(s: seq<T>, lo: nat, mid: nat)
    requires lo <= mid <= |s|
    ensures s[lo..] == s[lo..mid] + s[mid..]
  {
  }
}

=== FILE: server_cache.dfy ===
/**
 * The in-memory TTL cache: a map from keys to timestamped entries. The clock
 * (`Date.now()`) is the explicit argument `now` of each operation.
 */
module ServerCache {
  import opened Wrappers

  /** Five minutes, in milliseconds. */
  const DefaultTtl: int := 5 * 60 * 1000

  datatype Entry<V> = Entry(data: V, timestamp: int, ttl: int)

  type Cache<V> = map<string, Entry<V>>

  /** An entry is stale once strictly more than its ttl has elapsed. */
  predicate Expired<V>(e: Entry<V>, now: int): (stale: bool)
    ensures now == e.timestamp + e.ttl ==> !stale
    ensures now == e.timestamp + e.ttl + 1 ==> stale
    ensures now == e.timestamp ==> (stale <==> e.ttl < 0)
  {
    now - e.timestamp > e.ttl
  }

  /** `set(key, data, ttlMs = 300000)`: stores the entry stamped `now`, replacing only `key`. */
  function Set<V>(cache: Cache<V>, key: string, data: V, ttl: Option<int>, now: int): (c: Cache<V>)
    ensures c.Keys == cache.Keys + {key}
    ensures c[key] == Entry(data, now, ttl.GetOr(DefaultTtl))
    ensures forall k :: k in cache && k != key ==> c[k] == cache[k]
  {
    cache[key := Entry(data, now, ttl.GetOr(DefaultTtl))]
  }

  /**
   * `get(key)`: nothing for a missing key; nothing for a stale entry, which
   * is deleted; otherwise the stored data. Returns the cache afterwards.
   */
  function Get<V>(cache: Cache<V>, key: string, now: int): (r: (Option<V>, Cache<V>))
    ensures key !in cache ==> r == (None, cache)
    ensures key in cache && Expired(cache[key], now) ==>
      r.0 == None && r.1.Keys == cache.Keys - {key} && forall k :: k in r.1 ==> r.1[k] == cache[k]
    ensures key in cache && !Expired(cache[key], now) ==> r == (Some(cache[key].data), cache)
  {
    if key !in cache then (None, cache)
    else if Expired(cache[key], now) then (None, cache - {key})
    else (Some(cache[key].data), cache)
  }

  /** `clear()`. */
  function Clear<V>(cache: Cache<V>): (c: Cache<V>)
    ensures |c| == 0
  {
    map[]
  }

  /** `cleanup()`: deletes every stale entry and keeps the live ones untouched. */
  function Cleanup<V>(cache: Cache<V>, now: int): (c: Cache<V>)
    ensures forall k :: k in c <==> k in cache && !Expired(cache[k], now)
    ensures forall k :: k in c ==> c[k] == cache[k]
  {
    map k | k in cache && !Expired(cache[k], now) :: cache[k]
  }

  /** A read right after a write with a non-negative ttl returns the written data, until the ttl has passed. */
  lemma SetThenGet<V>(cache: Cache<V>, key: string, data: V, ttl: Option<int>, now: int, later: int)
    requires ttl.None? || ttl.value >= 0
    requires now <= later <= now + ttl.GetOr(DefaultTtl)
    ensures Get(Set(cache, key, data, ttl, now), key, later).0 == Some(data)
  {
  }

  /** After the ttl has passed, the written data is gone and the key is deleted. */
  lemma SetThenGetStale<V>(cache: Cache<V>, key: string, data: V, ttl: Option<int>, now: int, later: int)
    requires later > now + ttl.GetOr(DefaultTtl)
    ensures Get(Set(cache, key, data, ttl, now), key, later).0 == None
    ensures key !in Get(Set(cache, key, data, ttl, now), key, later).1
  {
  }

  /** Writing one key does not change what any other key reads. */
  lemma SetLeavesOtherKeys<V>(cache: Cache<V>, key: string, data: V, ttl: Option<int>, now: int, other: string, t: int)
    requires other != key
    ensures Get(Set(cache, key, data, ttl, now), other, t).0 == Get(cache, other, t).0
  {
  }

  /** A stale entry stays stale as the clock moves on. */
  lemma ExpiryIsPermanent<V>(e: Entry<V>, now: int, later: int)
    requires Expired(e, now)
    requires now <= later
    ensures Expired(e, later)
  {
  }

  /** Cleaning up is invisible to reads at the same time or later. */
  lemma CleanupInvisibleToGet<V>(cache: Cache<V>, now: int, key: string, later: int)
    requires now <= later
    ensures Get(Cleanup(cache, now), key, later).0 == Get(cache, key, later).0
  {
    if key in cache && Expired(cache[key], now) {
      ExpiryIsPermanent(cache[key], now, later);
    }
  }

  /** A second cleanup at the same time removes nothing more. */
  lemma CleanupIdempotent<V>(cache: Cache<V>, now: int)
    ensures Cleanup(Cleanup(cache, now), now) == Cleanup(cache, now)
  {
  }

  /** After clearing, every read misses. */
  lemma ClearThenGet<V>(cache: Cache<V>, key: string, now: int)
    ensures Get(Clear(cache), key, now) == (None, map[])
  {
  }
}

=== FILE: wrappers.dfy ===
/** Failure-carrying values shared by every module of the model. */
module Wrappers {

  /** An optional value: the TypeScript `T | null | undefined`. */
  datatype Option<+T> = None | Some(value: T) {
    function GetOr(default: T): T {
      match this
      case Some(v) => v
      case None => default
    }
  }

  /** The outcome of an operation that can throw: the thrown error becomes `Failure`. */
  datatype Result<+R, +E> = Success(value: R) | Failure(error: E)
}
